=== FILE: README.md ===
# pytest-answers: a Dafny model of the answer-comparison engine

pytest-answers is a pytest plugin for answer tests. An answer test is marked
`answer_test` and returns a value. In capture mode (`--answers-store DIR`)
the plugin writes that value to an HDF5 baseline file named after the test.
In verify mode (`--answers-dir DIR`) it compares the value with the baseline
it finds there. When `--answers` is not given, answer tests are skipped.

This project models that engine as pure functions over immutable data and
proves what it promises. The modules are:

- `Values` (values.dfy): the answers the model covers. An answer is a
  mapping of named arrays, a byte string, a text string, or an array-like
  value (a numpy ndarray, a Python number or a list of arrays, each with a
  shape and row-major elements). The module also defines the Python
  exceptions the engine lets escape.
- `Utf8` (utf8.dfy): strict UTF-8. h5py stores a `str` dataset as UTF-8 and
  reads it back as `bytes`; `bytes.decode()` turns it back into text.
- `Identity` (identity.dfy): `generate_test_name`, which maps module, class
  and test name to the relative key of the baseline. The key as the source
  builds it names only the innermost class; the model's key names every
  enclosing class (see "## Findings").
- `Baseline` (baseline.dfy): `store_answer` and `get_baseline_answer`. An
  HDF5 file is a map from dataset name to dataset (payload plus an optional
  hash attribute). The baseline root is a map from file path to such a
  container.
- `Comparator` (comparator.dfy): `compare_answer_to_store`. It is a
  type-directed check, and `np.testing.assert_array_equal` is modelled as
  exact elementwise equality with shape sensitivity. The result is a
  `Verdict`:
  - `Match` means the source returns `None`;
  - `Differs` means the source returns the assertion message;
  - `MissingBaseline` is the `pytest.fail` for a missing file;
  - `Error` is an exception that escapes.
- `Controller` (controller.dfy): the parts that choose the mode and the outcome:
  - `pytest_collection_modifyitems`;
  - the return-value interceptor of `wrap_data_interceptor`;
  - the `pytest_runtest_call` hook;
  - a whole session of tests run in order against shared plugin state.
- `Scenarios` (scenarios.dfy): the answers returned by the repository's own
  answer tests, and verify runs against their baselines.

Behaviours of the code that the model keeps on purpose:

- **A missing baseline names only the file.** The failure message names
  the relative file name `<key>.h5`, not the full path
  (`pytest_answers/plugin.py:132-135`).
- **One-dataset containers are read through "data".** A mapping with one
  key is written as one dataset named after that key, but such a container
  is read back through the name "data". Verifying it against its own capture
  therefore raises h5py's `KeyError`, unless its key is "data". The model
  writes that error as `KeyError("data")`, naming the missing dataset; the
  text of h5py's message is not modelled. An empty mapping
  behaves the same way. `Baseline.SmallMappingNotRecovered` and
  `Scenarios.OneKeyDictRaises` state this.
- **Recorded values are never cleared.** A marked test that raises is
  judged on a value recorded earlier under the same key
  (`Controller.RaisingTestReusesEarlierAnswer`).
- **Mapping mismatches do not name the key.** The message for a mapping
  value mismatch is numpy's, so the verdict carries only the array mismatch.
- **Text is decoded strictly.** A text candidate compared with a baseline
  that is not valid UTF-8 raises `UnicodeDecodeError`. A text candidate
  compared with a non-byte baseline raises `AttributeError`. A mapping
  candidate compared with a byte baseline raises `TypeError`.
- **A missing results directory raises.** Verify mode without
  `--answers-dir` raises `TypeError` from `os.path.join`.
- **Files open in append mode.** `store_answer` writes into the existing
  file when there is one. A dataset name the file already holds makes h5py
  raise, after the datasets written before it.

## Model

| member | source | states |
|---|---|---|
| `Identity.ModulePath` | pytest_answers/plugin.py:55 | the module part of the key has the module's length and every `.` replaced by `/`, all other characters kept |
| `Identity.Join` | pytest_answers/plugin.py:60 | joining onto an absolute second part gives that part alone; otherwise the result starts with the first part, ends with the second, and holds at most one extra character, a `/` between them when the first part is non-empty |
| `Identity.Flattened` | pytest_answers/plugin.py:56-57 | the test as `item.cls` sees it: same module and name, at most one class, a class exactly when the test has one, and unchanged for a test in at most one class |
| `Identity.WrittenStem` | pytest_answers/plugin.py:56-59 | the last key component as written is the one the model builds for the test reduced to its innermost class |
| `Identity.FlatStem` | pytest_answers/plugin.py:56-59 | with no class the last key component is the test name, and with one class it is `Cls.name` |
| `Identity.WrittenKey` | pytest_answers/plugin.py:51-60 | the key as written is the model's key of the test reduced to its innermost class, and equals the model's key for a test in at most one class |
| `Identity.TestKey` | pytest_answers/plugin.py:51-60 | for a well-named test the key is the module's directory path, one `/`, then the dotted path of every enclosing class and the test name, and that last part holds no `/` |
| `Identity.WellNamedParts` | pytest_answers/plugin.py:55-59 | for a well-named test the last key component holds no `/`, and the module path is non-empty and does not end in `/` |
| `Identity.ScopedIffInClass` | pytest_answers/plugin.py:56-59 | the last key component has the `Cls.name` form (possibly with further classes) exactly when the test is inside a class, and then its first dot ends the outermost class name |
| `Identity.ModulePathInjective` | pytest_answers/plugin.py:55 | two slash-free module names with the same directory path are equal |
| `Identity.QualifiedInjective` | pytest_answers/plugin.py:56-59 | two well-named tests with the same last key component have the same class path and test name |
| `Identity.KeyInjective` | pytest_answers/plugin.py:51-60 | with every enclosing class in the key, two well-named tests with the same key have the same module, classes and name, so distinct tests never share a baseline file |
| `Identity.QualifiedFree` | pytest_answers/plugin.py:56-59 | the class path and test name joined by dots holds no `/` when none of its parts does |
| `Identity.IdentifierNamed` | pytest_answers/plugin.py:56-59 | a name of letters, digits and underscores is a valid class name and test name |
| `Identity.NestedClassesCollide` | pytest_answers/plugin.py:56-59 | two distinct well-named tests in `TestOuter1.TestInner` and `TestOuter2.TestInner` get the same key as written, and different keys in the model |
| `Utf8.DecodeEncode` | pytest_answers/plugin.py:151-152 | decoding the UTF-8 bytes h5py stores for a string gives back that string |
| `Utf8.EncodeDecode` | pytest_answers/plugin.py:152 | bytes that decode to a string are exactly that string's UTF-8 encoding |
| `Utf8.DecodeMatchesIff` | pytest_answers/plugin.py:152 | stored bytes decode to text `t` if and only if they are the encoding of `t` |
| `Baseline.EntryDatasets` | pytest_answers/plugin.py:171-175 | a mapping is written as exactly one dataset per key, named after the key, holding that key's array |
| `Baseline.Store` | pytest_answers/plugin.py:170-179 | on a fresh file, a mapping gives one dataset per key and nothing else, and any other answer gives exactly the dataset "data" (bytes as given, text as UTF-8, arrays as arrays); a hash attribute is present exactly on ndarray values |
| `Baseline.HashesDescribeTheirData` | pytest_answers/plugin.py:174-179 | every hash attribute written is the digest of its own dataset's array |
| `Baseline.AppendEntries` | pytest_answers/plugin.py:171-175 | writing a mapping into an open file raises exactly when some key is already a dataset, and never alters an existing dataset; without a clash every key becomes its dataset |
| `Baseline.Append` | pytest_answers/plugin.py:170-177 | writing into an open file succeeds exactly when the new dataset names are disjoint from the file's, and then the file becomes its old datasets plus the fresh-file layout |
| `Baseline.StoreAnswer` | pytest_answers/plugin.py:158-179 | only the file at `<store_dir>/<key>.h5` is created or changed; a file that did not exist ends up holding the fresh-file layout, and an existing one raises exactly on a name clash |
| `Baseline.BaselinePathLayout` | pytest_answers/plugin.py:165-166 | the baseline path ends with `<key>.h5`, and for a relative key it starts with the directory |
| `Baseline.BaselinePathInjective` | pytest_answers/plugin.py:165-166 | under one directory, two relative keys name the same baseline file only when they are equal |
| `Baseline.RecaptureRaises` | pytest_answers/plugin.py:170-177 | capturing a second answer into the same directory raises exactly when the two answers' dataset names meet |
| `Baseline.RecaptureRaisesForData` | pytest_answers/plugin.py:176-177 | a second capture of a non-mapping answer after a non-mapping answer always raises, since "data" is taken |
| `Baseline.SharedNames` | pytest_answers/plugin.py:171-173 | two mappings' dataset names meet exactly when the mappings share a key |
| `Baseline.RecaptureRaisesForMappings` | pytest_answers/plugin.py:171-173 | a second mapping capture raises exactly when it shares a key with the first |
| `Baseline.Read` | pytest_answers/plugin.py:136-140 | a file with more than one dataset reads as all its datasets; otherwise it reads as the "data" dataset, and raises `KeyError` exactly when that is absent |
| `Baseline.StoreReadRoundTrip` | pytest_answers/plugin.py:136-140 | reading a freshly written file gives back the mapping's keys and arrays (two or more keys), the bytes, the UTF-8 bytes of the text, or the array |
| `Baseline.MappingRoundTrip` | pytest_answers/plugin.py:137-138 | a mapping with at least two keys reads back as all its keys, each with its own array |
| `Baseline.PlainRoundTrip` | pytest_answers/plugin.py:139-140 | a non-mapping answer reads back as its "data" dataset |
| `Baseline.SmallMappingNotRecovered` | pytest_answers/plugin.py:137-140 | a mapping with fewer than two keys is never read back as a mapping: it raises `KeyError`, or reads as a bare array when its one key is "data" |
| `Baseline.MissingMessage` | pytest_answers/plugin.py:135 | the missing-baseline message contains the file name it is given |
| `Baseline.GetBaselineAnswer` | pytest_answers/plugin.py:131-140 | a failure happens exactly when the results directory is set and the file is absent, and its message names `<key>.h5`; an unset directory raises `TypeError`; an existing file is read as `Read` says |
| `Comparator.DifferingFrom` | pytest_answers/plugin.py:154 | gives exactly the compared positions from `i` on where the two arrays differ, in increasing order |
| `Comparator.CompareArrays` | pytest_answers/plugin.py:154 | the array check passes if and only if the shapes are equal or one side is 0-d and every compared position is equal; otherwise it names both shapes when they cannot be broadcast, or lists every differing position |
| `Comparator.CompareStored` | pytest_answers/plugin.py:148 | a stored dataset matches a candidate array exactly when it is an array with the same values |
| `Comparator.EntryVerdict` | pytest_answers/plugin.py:147-148 | one key passes exactly when it is present in the baseline with the same values; an absent key gives a missing-key mismatch |
| `Comparator.CompareEntries` | pytest_answers/plugin.py:145-148 | a mapping passes if and only if every candidate key passes; otherwise the verdict is that of the first failing key in the candidate's order, and never an exception |
| `Comparator.Compare` | pytest_answers/plugin.py:144-156 | dispatch on the candidate: a mapping passes exactly when all its keys match (extra baseline keys ignored), and against a single-dataset baseline only when it is empty, raising `TypeError` on a byte baseline; bytes exactly when the baseline is those bytes, text exactly when the stored bytes are its encoding, anything else by the array check; exceptions escape only for text and for a mapping against bytes |
| `Comparator.CompareAnswerToStore` | pytest_answers/plugin.py:142-156 | a missing baseline is reported (naming `<key>.h5`) exactly when the results directory is set and the file is absent; an unset results directory raises `TypeError`; otherwise a load error escapes and a loaded baseline is compared |
| `Comparator.EncodeInjective` | pytest_answers/plugin.py:151-152 | two strings with the same stored bytes are equal |
| `Comparator.MappingComparesAsAccepts` | pytest_answers/plugin.py:145-148 | a mapping candidate passes against a captured mapping exactly when each of its keys is among the captured keys with the same values |
| `Comparator.MatchIsAccepted` | pytest_answers/plugin.py:145-148 | a mapping candidate that passes against a captured mapping has, for each key, a captured entry with that key and the same values |
| `Comparator.AcceptedMatches` | pytest_answers/plugin.py:145-148 | a mapping candidate whose every key is among the captured keys with the same values passes |
| `Comparator.ComparesAsAccepts` | pytest_answers/plugin.py:144-156 | comparing with what a captured answer reads back as passes exactly when the candidate is accepted against the original answer |
| `Comparator.ComparedWithCapture` | pytest_answers/plugin.py:142-143 | verifying against a fresh capture compares the candidate with what that capture reads back as |
| `Comparator.VerifyAfterCapture` | pytest_answers/plugin.py:142-156 | verifying against the directory an answer was just captured into passes if and only if the candidate is accepted against the captured answer |
| `Comparator.CapturedAnswerPasses` | pytest_answers/plugin.py:142-156 | any recoverable answer passes against its own fresh capture |
| `Controller.Collected` | pytest_answers/plugin.py:47-49 | an item changes exactly when `--answers` is off and it has the `answer_test` keyword, and then only by one skip marker with the fixed reason appended to its own markers and the skip keyword; its identity and inherited markers never change |
| `Controller.ModifyItems` | pytest_answers/plugin.py:43-49 | with `--answers` the items are unchanged; without it exactly the items with the `answer_test` keyword change, by one skip marker with the fixed reason added after their own markers and before inherited ones |
| `Controller.FirstSkip` | pytest_answers/plugin.py:46-49 | no reason exactly when there is no skip marker; otherwise the reason of the first one |
| `Controller.FirstSkipConcat` | pytest_answers/plugin.py:46-49 | the first skip of the test's own markers followed by inherited ones is the first own skip, or else the first inherited one |
| `Controller.Intercept` | pytest_answers/plugin.py:63-71 | a returned value is recorded under the test's key and every other key is unchanged; a raising test records nothing |
| `Controller.Plain` | pytest_answers/plugin.py:89-91 | a test that is not intercepted passes exactly when it returns, and otherwise fails with its own exception |
| `Controller.Surface` | pytest_answers/plugin.py:113-117 | the test passes exactly on a match when it returned; it fails without a trace exactly on a mismatch or a missing baseline, carrying that mismatch or message; an escaping exception fails it; on a match its own outcome stands |
| `Controller.RuntestCall` | pytest_answers/plugin.py:86-117 | the hook's behaviour, listed below the table |
| `Controller.RunItem` | pytest_answers/plugin.py:30-40 | a skip marker wins at setup; a test without the marker, or any test without `--answers`, runs untouched; with `--answers` and no skip the hook decides, in both capture and verify mode; verify mode writes no file; a returning answer test in capture mode is skipped with the capture message or fails with the name clash |
| `Controller.RunAll` | pytest_answers/plugin.py:86-117 | tests run in order give one outcome each; without `--answers` nothing is recorded or written, and in verify mode no file changes |
| `Controller.RunAllStepwise` | pytest_answers/plugin.py:86-117 | the outcome of each test in a session is what that test gives, in either mode, when run against the state the tests before it left behind |
| `Controller.RunAllOutcomes` | pytest_answers/plugin.py:86-117 | in a session, skipped tests report their first skip reason, unmarked tests (and all tests without `--answers`) their own outcome, and returning answer tests in capture mode the capture skip or the name clash |
| `Controller.RunSession` | pytest_answers/plugin.py:43-49 | a session reports one outcome per collected test; with `--answers` collection changes nothing, without it no state changes, and in verify mode no file changes |
| `Controller.DisabledSessionSkipsAnswerTests` | pytest_answers/plugin.py:43-49 | without `--answers`, each test reports a skip among its own markers first, then "need --answers option to run" if it is an answer test, then an inherited skip, and otherwise its own outcome; no baseline is touched |
| `Controller.DisabledFirstSkip` | pytest_answers/plugin.py:46-49 | after collection with the feature off, the skip setup applies is the first own skip, then the fixed one for an answer test, then the first inherited one |
| `Controller.InheritedSkipYieldsToDisabledReason` | pytest_answers/plugin.py:46-49 | an answer test without its own skip marker is skipped with "need --answers option to run" even when its class or module carries another skip |
| `Controller.CaptureThenVerify` | pytest_answers/plugin.py:107-117 | capturing into a directory without the baseline reports a skip, and a later verify run against that directory passes exactly when the new value is accepted against the captured one |
| `Controller.NestedCapturesClashAsWritten` | pytest_answers/plugin.py:165-177 | with the key as written, `TestOuter1::TestInner::test_x` and `TestOuter2::TestInner::test_x` capture into one file, and after the first stores a non-mapping answer the second raises `ValueError` |
| `Controller.NestedCapturesSeparate` | pytest_answers/plugin.py:165-177 | with every class in the key, the same two tests capture into separate files and neither capture raises |
| `Controller.NestedTestsBothCaptured` | pytest_answers/plugin.py:107-111 | a capture run of the two nested tests reports both as skipped with the capture message |
| `Controller.RaisingTestReusesEarlierAnswer` | pytest_answers/plugin.py:96-100 | a marked test that raises, with a value recorded under its key by an earlier run, is judged on that stale value |
| `Scenarios.OnesPassAfterCapture` | tests/test_pytest_answers.py:8-10 | `np.ones((10,)) * 2` passes against its own capture |
| `Scenarios.DictPassesAfterCapture` | tests/test_pytest_answers.py:13-15 | `{"a": 1, "b": 2}` passes against its own capture |
| `Scenarios.TextPassesAfterCapture` | tests/test_pytest_answers.py:18-20 | `"somelongstring"` passes against its own capture |
| `Scenarios.BytesPassAfterCapture` | tests/test_pytest_answers.py:23-25 | `b"somelongstring"` passes against its own capture |
| `Scenarios.ListPassesAfterCapture` | tests/test_pytest_answers.py:28-30 | a list of two arrays passes against its own capture |
| `Scenarios.WrongLengthReportsShapes` | tests/test_pytest_answers.py:8-10 | ten values checked against nine fails with a mismatch naming both shapes |
| `Scenarios.ChangedValueFails` | tests/test_pytest_answers.py:13-15 | changing the value under "b" fails at that array's only position, after "a" passes |
| `Scenarios.OneKeyDictRaises` | pytest_answers/plugin.py:137-140 | a one-key dict checked against its own capture raises `KeyError` |
| `Scenarios.ChangedTextFails` | tests/test_pytest_answers.py:18-20 | captured text checked against any other text fails as a difference, not as a decoding error |
| `Scenarios.MissingBaselineNamesFile` | pytest_answers/plugin.py:132-135 | with no baseline file, the verdict is a failure whose message names `<key>.h5` |

`Controller.RuntestCall` states the following:

- A test without the marker runs untouched.
- For a marked test, the return value is recorded under the test's key.
- When nothing is recorded under the key, the test's own outcome stands and
  nothing is written.
- In capture mode, the recorded answer is stored and the test is skipped
  with "Skipped test, since generating answer.". It fails instead with the
  name-clash error when that is raised.
- In verify mode, no file changes. The test fails without a trace exactly
  when the comparator reports a mismatch or a missing baseline, with that
  mismatch or message. It fails with the comparator's exception when one
  escapes: `TypeError` without `--answers-dir`, `KeyError` for a baseline
  written from a one-key mapping. On a match the test's own outcome stands,
  so it passes exactly when the verdict is a match and the test returned.

## Left out

- Option parsing (`pytest_addoption`) is left out; the three options are the fields of `Controller.Config`. Marker and plugin registration in `pytest_configure` reduce to one rule: the hook runs only with `--answers`.
- `pytest_unconfigure` is left out: it only prints a placeholder line.
- The pluggy hookwrapper mechanics are left out. The test body's effect is the `Execution` parameter. A `pytest.skip`, `pytest.fail` or exception raised after the `yield` replaces the test's own outcome, and that is modelled directly.
- Directory creation (`os.makedirs`) and the existence checks are left out. They are filesystem I/O: the baseline root is a map from path to file, and creating directories is assumed to succeed.
- The MD5 digest is kept symbolic as the array it was computed over. Only the attribute's presence and its argument are stated.
- HDF5 treats `/` inside a dataset name as a group path. The model treats every mapping key as a flat dataset name.
- HDF5 lists datasets in name order, not insertion order. The model keeps a map, so order is not represented.
- numpy dtypes and coercion are left out. Elements are exact reals, signed infinities and NaN, with NaN equal to NaN as `assert_array_equal` treats it.
- The text of numpy's assertion messages is left out. A mismatch is kept as structured data: both shapes, or the differing positions.
- `Baseline.Store`: h5py stores `bytes` and `str` as variable-length strings, and `create_dataset` raises `ValueError` for a value with an embedded NUL. The model stores such bytes and text like any other and reads them back unchanged, so `Baseline.StoreReadRoundTrip` and `Comparator.CapturedAnswerPasses` also cover values the source cannot store.
- h5py's `KeyError` carries its own message; the model's `KeyError("data")` records only the missing name.
- Lone surrogates in Python strings are left out. h5py would fail to encode them, and Dafny's `char` excludes them.
- Mapping values other than arrays and numbers are left out. Nested dicts and strings inside a dict would make `create_dataset` behave differently.
- `Controller.RuntestCall`: the hook, and through it `Controller.RunItem`, `Controller.RunAll` and `Controller.RunSession`, files answers under the corrected `Identity.TestKey`, not under the key as written. For two tests in different outer classes around a same-named inner class, the source shares one interceptor slot and one baseline file, so a second capture can raise `ValueError` and verify mode compares both against one file. The model keeps them apart. `Controller.NestedCapturesClashAsWritten` states what the source does in that case.
- `Values.Answer`: return values outside the four variants are left out. Among them is `None`, from a marked test without a `return`. The source records it, capture mode then raises `TypeError` from `create_dataset` after the file is created, and verify mode reports an array mismatch.
- `Controller.Plain`: every exception from the test body is a failure. pytest reports a body that calls `pytest.skip`, `pytest.importorskip` or `pytest.xfail` as skipped or xfailed. For a marked test with nothing recorded, the source lets that outcome stand. `skipif` markers, which pytest evaluates at setup before `skip` markers, are plain markers in the model and never skip.
- `Comparator.Compare`: some comparisons across variants raise or warn inside numpy, and the model reduces them to a plain mismatch. These are bytes against an array, an array against a mapping, and a mapping candidate against an array baseline (where `key in ndarray` is elementwise).
- Windows path separators are left out; `os.path.join` is modelled with POSIX rules.
- `Controller.RunItem`: an `xfail` marker on an answer test is a plain marker in the model. pytest would report a failing comparison on such a test as xfailed, and a passing one as xpassed or, with `strict`, failed.
- `Comparator.EntryVerdict`: the missing-key mismatch carries the key. The source's bare `assert` has an empty message unless pytest's assertion rewriting applies to the plugin, so the test fails with an empty message. The same holds for the bytes and text mismatches.
- `Baseline.BaselinePath`: paths are compared as strings, with no normalisation. `answers` and `./answers`, or a relative and an absolute spelling of one directory, name different files in the model and the same file on disk.
- Baseline keys are not stated to depend only on module, classes and test name. `Identity.TestKey` is a function of those, so this holds by construction.
- `Baseline.AppendEntries`: the partial write before a name clash is stated only as "existing datasets unchanged, names within the old file plus the new keys". The exact prefix of keys written before the clash is not stated.

## Findings

| source | as written | input that shows it | evidently intended | confidence | as-written member | corrected member |
|---|---|---|---|---|---|---|
| pytest_answers/plugin.py:53-59 | the key names only `item.cls`, the innermost class, although the docstring promises a unique name for each test | `m.py::TestOuter1::TestInner::test_x` and `m.py::TestOuter2::TestInner::test_x` both get the key `m/TestInner.test_x`, so they share one baseline file, and capturing the second raises `ValueError` | every enclosing class is named, `m/TestOuter1.TestInner.test_x` | medium; not executed | `Identity.WrittenKey`, shown by `Identity.NestedClassesCollide` and `Controller.NestedCapturesClashAsWritten` | `Identity.TestKey`, proved one-to-one by `Identity.KeyInjective`, equal to the key as written for tests in at most one class by the contract of `Identity.WrittenKey`, and giving separate captures by `Controller.NestedCapturesSeparate` and `Controller.NestedTestsBothCaptured` |

=== FILE: baseline.dfy ===
/** The baseline store: how an answer becomes an HDF5 container of named
    datasets, and what reading a container back yields.

  A container is a map from dataset name to dataset; the baseline root is a
  map from file path to container.
 */
module Baseline {
  import opened Values
  import opened Identity
  import Utf8

  /** The payload of one dataset, as `f[name][()]` returns it: a byte
      string (bytes, or text after h5py's UTF-8 encoding) or an array. */
  datatype Stored = StoredBytes(bytes: seq<byte>) | StoredArray(tensor: Tensor)

  /** The content-hash attribute. The digest (MD5 of the raw bytes in the
      source) is kept symbolic: only what it was computed over is recorded. */
  datatype Digest = Md5(raw: Tensor)

  datatype Dataset = Dataset(value: Stored, hash: Option<Digest>)

  type Container = map<string, Dataset>

  /** Baseline files present on disk, by full path. */
  type Files = map<string, Container>

  /** A loaded baseline: all datasets of a multi-dataset container, or the
      single conventional one. */
  datatype Reference = Group(members: map<string, Stored>) | Single(value: Stored)

  datatype Loaded =
    | Loaded(ref: Reference)
    | Missing(message: string)
    | LoadError(error: PyError)

  const DataName := "data"
  const Extension := ".h5"

  /** The hash attribute is written only for a numpy ndarray. */
  function HashOf(v: ArrayLike): Option<Digest>
  {
    if v.kind == Ndarray then Some(Md5(v.tensor)) else None
  }

  function ArrayDataset(v: ArrayLike): Dataset
  {
    Dataset(StoredArray(v.tensor), HashOf(v))
  }

  /** One dataset per mapping entry, named after its key. */
  function EntryDatasets(es: seq<Entry>): (c: Container)
    requires DistinctKeys(es)
    ensures c.Keys == KeySet(es)
    ensures forall i :: 0 <= i < |es| ==> c[es[i].key] == ArrayDataset(es[i].value)
  {
    if es == [] then map[]
    else
      var rest := EntryDatasets(es[1..]);
      KeySetCons(es);
      rest[es[0].key := ArrayDataset(es[0].value)]
  }

  lemma KeySetCons(es: seq<Entry>)
    requires |es| > 0
    ensures KeySet(es) == KeySet(es[1..]) + {es[0].key}
  {
    assert forall e :: e in es <==> e == es[0] || e in es[1..];
  }

  /** `store_answer` on a fresh container. */
  function Store(a: Answer): (c: Container)
    requires ValidAnswer(a)
    ensures a.Mapping? ==> c.Keys == KeySet(a.entries)
    ensures a.Mapping? ==> forall i :: 0 <= i < |a.entries| ==>
      c[a.entries[i].key].value == StoredArray(a.entries[i].value.tensor)
      && (c[a.entries[i].key].hash.Some? <==> a.entries[i].value.kind == Ndarray)
    ensures !a.Mapping? ==> c.Keys == {DataName}
    ensures !a.Mapping? ==> (c[DataName].hash.Some? <==> a.Array? && a.value.kind == Ndarray)
    ensures a.Bytes? ==> c[DataName].value == StoredBytes(a.bytes)
    ensures a.Text? ==> c[DataName].value == StoredBytes(Utf8.Encode(a.text))
    ensures a.Array? ==> c[DataName].value == StoredArray(a.value.tensor)
  {
    match a
    case Mapping(es) => EntryDatasets(es)
    case Bytes(b) => map[DataName := Dataset(StoredBytes(b), None)]
    case Text(s) => map[DataName := Dataset(StoredBytes(Utf8.Encode(s)), None)]
    case Array(v) => map[DataName := ArrayDataset(v)]
  }

  /** Every hash the store writes is the digest of that dataset's own array. */
  lemma HashesDescribeTheirData(a: Answer)
    requires ValidAnswer(a)
    ensures forall k :: k in Store(a) && Store(a)[k].hash.Some? ==>
      Store(a)[k].value == StoredArray(Store(a)[k].hash.value.raw)
  {
    var c := Store(a);
    forall k | k in c && c[k].hash.Some? ensures c[k].value == StoredArray(c[k].hash.value.raw) {
      if a.Mapping? {
        var i :| 0 <= i < |a.entries| && a.entries[i].key == k;
        assert c[k] == ArrayDataset(a.entries[i].value);
      }
    }
  }

  /** Reading a container, as `get_baseline_answer` does once the file is
      open: more than one dataset gives all of them; otherwise the dataset
      named "data" is looked up, which raises `KeyError` when absent. */
  function Read(c: Container): (r: Loaded)
    ensures !r.Missing?
    ensures (r.Loaded? && r.ref.Group?) <==> |c| > 1
    ensures r.Loaded? && r.ref.Group? ==>
      r.ref.members.Keys == c.Keys && forall k :: k in c ==> r.ref.members[k] == c[k].value
    ensures r.Loaded? && r.ref.Single? ==> DataName in c && r.ref.value == c[DataName].value
    ensures r.LoadError? <==> |c| <= 1 && DataName !in c
    ensures r.LoadError? ==> r.error == KeyError(DataName)
  {
    if |c| > 1 then Loaded(Group(map k | k in c :: c[k].value))
    else if DataName in c then Loaded(Single(c[DataName].value))
    else LoadError(KeyError(DataName))
  }

  /** Answers that survive a store-then-read: anything but a mapping with
      fewer than two keys. */
  predicate Recoverable(a: Answer)
  {
    a.Mapping? ==> |a.entries| >= 2
  }

  lemma TwoKeysMakeTwoDatasets(es: seq<Entry>)
    requires DistinctKeys(es) && |es| >= 2
    ensures |KeySet(es)| >= 2
  {
    var k0, k1 := es[0].key, es[1].key;
    assert {k0, k1} <= KeySet(es);
    assert |{k0, k1}| == 2;
    SubsetCardinality({k0, k1}, KeySet(es));
  }

  lemma SubsetCardinality<T>(a: set<T>, b: set<T>)
    requires a <= b
    ensures |a| <= |b|
  {
    assert b == a + (b - a);
  }

  /** Store then read gives back what was stored: the mapping of all keys,
      the bytes, the UTF-8 bytes of the text, or the array. */
  lemma StoreReadRoundTrip(a: Answer)
    requires ValidAnswer(a) && Recoverable(a)
    ensures Read(Store(a)).Loaded?
    ensures a.Mapping? ==> (
      && Read(Store(a)).ref.Group?
      && Read(Store(a)).ref.members.Keys == KeySet(a.entries)
      && forall i :: 0 <= i < |a.entries| ==>
           a.entries[i].key in Read(Store(a)).ref.members
           && Read(Store(a)).ref.members[a.entries[i].key] == StoredArray(a.entries[i].value.tensor))
    ensures a.Bytes? ==> Read(Store(a)).ref == Single(StoredBytes(a.bytes))
    ensures a.Text? ==> Read(Store(a)).ref == Single(StoredBytes(Utf8.Encode(a.text)))
    ensures a.Array? ==> Read(Store(a)).ref == Single(StoredArray(a.value.tensor))
  {
    if a.Mapping? {
      MappingRoundTrip(a);
    } else {
      PlainRoundTrip(a);
    }
  }

  lemma MappingRoundTrip(a: Answer)
    requires ValidAnswer(a) && a.Mapping? && |a.entries| >= 2
    ensures Read(Store(a)).Loaded? && Read(Store(a)).ref.Group?
    ensures Read(Store(a)).ref.members.Keys == KeySet(a.entries)
    ensures forall i :: 0 <= i < |a.entries| ==>
      a.entries[i].key in Read(Store(a)).ref.members
      && Read(Store(a)).ref.members[a.entries[i].key] == StoredArray(a.entries[i].value.tensor)
  {
    var c := Store(a);
    TwoKeysMakeTwoDatasets(a.entries);
    assert |c| == |c.Keys| > 1;
    var m := Read(c).ref.members;
    forall i | 0 <= i < |a.entries| ensures m[a.entries[i].key] == StoredArray(a.entries[i].value.tensor) {
      assert a.entries[i].key in c;
    }
  }

  lemma PlainRoundTrip(a: Answer)
    requires !a.Mapping?
    ensures Read(Store(a)) == Loaded(Single(Store(a)[DataName].value))
  {
    var c := Store(a);
    assert c.Keys == {DataName};
    assert |c| == 1;
  }

  /** The quirk of the source: a one-key mapping is written as one dataset
      named after its key, but a one-dataset container is read through
      "data". So it raises `KeyError`, or, when its key is "data", comes back
      as a bare array; an empty mapping raises `KeyError` too. */
  lemma SmallMappingNotRecovered(a: Answer)
    requires ValidAnswer(a) && a.Mapping? && |a.entries| <= 1
    ensures !(Read(Store(a)).Loaded? && Read(Store(a)).ref.Group?)
    ensures |a.entries| == 1 && a.entries[0].key == DataName ==>
      Read(Store(a)) == Loaded(Single(StoredArray(a.entries[0].value.tensor)))
    ensures (|a.entries| == 0 || a.entries[0].key != DataName) ==>
      Read(Store(a)) == LoadError(KeyError(DataName))
  {
    var c := Store(a);
    if |a.entries| == 1 {
      assert KeySet(a.entries) == {a.entries[0].key};
    } else {
      assert KeySet(a.entries) == {};
    }
  }

  /** Where the baseline of the test with key `key` lives under `dir`. */
  function BaselinePath(dir: string, key: string): string
  {
    Join(dir, key + Extension)
  }

  /** The baseline path ends with `<key>.h5`, and a relative key puts it
      under `dir`. */
  lemma BaselinePathLayout(dir: string, key: string)
    ensures |BaselinePath(dir, key)| >= |key| + |Extension|
    ensures BaselinePath(dir, key)[|BaselinePath(dir, key)| - |key| - |Extension|..] == key + Extension
    ensures (|key| == 0 || key[0] != '/') ==>
      |dir| <= |BaselinePath(dir, key)| && BaselinePath(dir, key)[..|dir|] == dir
  {
    var b := key + Extension;
    assert |key| > 0 ==> b[0] == key[0];
    assert |key| == 0 ==> b[0] == '.';
  }

  /** Relative keys name distinct files under one directory exactly when
      they differ. */
  lemma BaselinePathInjective(dir: string, k1: string, k2: string)
    requires |k1| > 0 && k1[0] != '/' && |k2| > 0 && k2[0] != '/'
    requires BaselinePath(dir, k1) == BaselinePath(dir, k2)
    ensures k1 == k2
  {
    var b1, b2 := k1 + Extension, k2 + Extension;
    assert b1[0] == k1[0] && b2[0] == k2[0];
    var pre := if dir == [] || dir[|dir| - 1] == '/' then dir else dir + "/";
    assert BaselinePath(dir, k1) == pre + b1 && BaselinePath(dir, k2) == pre + b2;
    assert b1 == BaselinePath(dir, k1)[|pre|..] == b2;
    assert k1 == b1[..|k1|] && k2 == b2[..|k2|];
  }

  /** `msg` contains `s` as a contiguous piece. */
  predicate Mentions(msg: string, s: string)
  {
    exists i :: 0 <= i <= |msg| && s <= msg[i..]
  }

  function MissingMessage(filename: string): (msg: string)
    ensures Mentions(msg, filename)
  {
    var msg := "Answer '" + filename + "' does not exist";
    assert filename <= msg[8..];
    msg
  }

  /** What h5py raises when `create_dataset` is given a name the file
      already holds ("Unable to create dataset (name already exists)"). */
  const NameTaken := OtherException("ValueError")

  /** The loop over a mapping's items, writing into an open container: each
      key becomes a dataset, and the first key the container already holds
      raises, leaving the datasets written before it in place. */
  function AppendEntries(c: Container, es: seq<Entry>): (w: (Container, Option<PyError>))
    requires DistinctKeys(es)
    ensures w.1.None? <==> forall i :: 0 <= i < |es| ==> es[i].key !in c
    ensures w.1.Some? ==> w.1 == Some(NameTaken)
    ensures forall k :: k in c ==> k in w.0 && w.0[k] == c[k]
    ensures w.0.Keys <= c.Keys + KeySet(es)
    ensures w.1.None? ==> w.0.Keys == c.Keys + KeySet(es)
    ensures w.1.None? ==> forall i :: 0 <= i < |es| ==> es[i].key in w.0 && w.0[es[i].key] == ArrayDataset(es[i].value)
    decreases |es|
  {
    if es == [] then (c, None)
    else if es[0].key in c then (c, Some(NameTaken))
    else
      var c1 := c[es[0].key := ArrayDataset(es[0].value)];
      var tail := es[1..];
      assert forall i :: 1 <= i < |es| ==> es[i] == tail[i - 1];
      KeySetCons(es);
      AppendEntries(c1, tail)
  }

  /** `store_answer`'s writes into a container opened in append mode. Into
      an empty container this is `Store`; otherwise it succeeds exactly when
      no dataset name is taken, and then adds `Store(a)` to what was there. */
  function Append(c: Container, a: Answer): (w: (Container, Option<PyError>))
    requires ValidAnswer(a)
    ensures w.1.None? <==> c.Keys !! Store(a).Keys
    ensures w.1.Some? ==> w.1 == Some(NameTaken)
    ensures w.1.None? ==> w.0 == c + Store(a)
    ensures forall k :: k in c ==> k in w.0 && w.0[k] == c[k]
  {
    match a
    case Mapping(es) =>
      var w := AppendEntries(c, es);
      NoClashIffDisjoint(c, es);
      if w.1.None? then
        AppendedIsUnion(c, es, w.0);
        w
      else w
    case _ =>
      if DataName in c then (c, Some(NameTaken)) else (c + Store(a), None)
  }

  lemma AppendedIsUnion(c: Container, es: seq<Entry>, m: Container)
    requires DistinctKeys(es)
    requires m.Keys == c.Keys + KeySet(es)
    requires forall k :: k in c ==> m[k] == c[k]
    requires forall i :: 0 <= i < |es| ==> m[es[i].key] == ArrayDataset(es[i].value)
    ensures m == c + EntryDatasets(es)
  {
    var u := c + EntryDatasets(es);
    forall k | k in m ensures k in u && m[k] == u[k] {
      if k in KeySet(es) {
        var i := FindKey(es, k);
      }
    }
  }

  /** No key is already a dataset exactly when the names are disjoint. */
  lemma NoClashIffDisjoint(c: Container, es: seq<Entry>)
    ensures (forall i :: 0 <= i < |es| ==> es[i].key !in c) <==> c.Keys !! KeySet(es)
  {
    if exists k :: k in c && k in KeySet(es) {
      var k :| k in c && k in KeySet(es);
      var i := FindKey(es, k);
    }
  }

  lemma FindKey(es: seq<Entry>, k: string) returns (i: nat)
    requires k in KeySet(es)
    ensures i < |es| && es[i].key == k
  {
    var e :| e in es && e.key == k;
    i :| i < |es| && es[i] == e;
  }

  /** The outcome of `store_answer`: the baseline files afterwards, and the
      exception it raised, if any. */
  datatype Written = Written(files: Files, error: Option<PyError>)

  /** `store_answer`: the file at the baseline path is opened in append mode
      (and created when absent) and the answer's datasets are written into
      it; no other file changes. A fresh file simply holds `Store(a)`. */
  function StoreAnswer(files: Files, storeDir: string, key: string, a: Answer): (w: Written)
    requires ValidAnswer(a)
    ensures w.files.Keys == files.Keys + {BaselinePath(storeDir, key)}
    ensures forall p :: p in files && p != BaselinePath(storeDir, key) ==> w.files[p] == files[p]
    ensures BaselinePath(storeDir, key) !in files ==>
      w == Written(files[BaselinePath(storeDir, key) := Store(a)], None)
    ensures BaselinePath(storeDir, key) in files ==>
      (w.error.None? <==> files[BaselinePath(storeDir, key)].Keys !! Store(a).Keys)
    ensures w.error.Some? ==> w.error == Some(NameTaken)
  {
    var path := BaselinePath(storeDir, key);
    var before := if path in files then files[path] else map[];
    assert path !in files ==> before + Store(a) == Store(a);
    var w := Append(before, a);
    Written(files[path := w.0], w.1)
  }

  /** Capturing twice into the same directory raises exactly when the two
      answers' dataset names meet. */
  lemma RecaptureRaises(files: Files, storeDir: string, key: string, a: Answer, b: Answer)
    requires ValidAnswer(a) && ValidAnswer(b) && BaselinePath(storeDir, key) !in files
    ensures StoreAnswer(StoreAnswer(files, storeDir, key, a).files, storeDir, key, b).error.Some?
      <==> !(Store(a).Keys !! Store(b).Keys)
  {
    var path := BaselinePath(storeDir, key);
    var fs := StoreAnswer(files, storeDir, key, a).files;
    assert path in fs && fs[path] == Store(a);
  }

  /** A second non-mapping answer always raises, since "data" is taken. */
  lemma RecaptureRaisesForData(files: Files, storeDir: string, key: string, a: Answer, b: Answer)
    requires ValidAnswer(a) && ValidAnswer(b) && BaselinePath(storeDir, key) !in files
    requires !a.Mapping? && !b.Mapping?
    ensures StoreAnswer(StoreAnswer(files, storeDir, key, a).files, storeDir, key, b).error == Some(NameTaken)
  {
    RecaptureRaises(files, storeDir, key, a, b);
    assert DataName in Store(a).Keys * Store(b).Keys;
  }

  /** Two mappings' datasets share a name exactly when the mappings share a key. */
  lemma SharedNames(a: Answer, b: Answer)
    requires ValidAnswer(a) && ValidAnswer(b) && a.Mapping? && b.Mapping?
    ensures !(Store(a).Keys !! Store(b).Keys)
      <==> exists i, j :: 0 <= i < |a.entries| && 0 <= j < |b.entries| && a.entries[i].key == b.entries[j].key
  {
    var ka, kb := Store(a).Keys, Store(b).Keys;
    assert ka == KeySet(a.entries) && kb == KeySet(b.entries);
    if !(ka !! kb) {
      var k :| k in ka && k in kb;
      var i := FindKey(a.entries, k);
      var j := FindKey(b.entries, k);
      assert a.entries[i].key == b.entries[j].key;
    }
  }

  /** A second mapping raises exactly when it shares a key with the first. */
  lemma RecaptureRaisesForMappings(files: Files, storeDir: string, key: string, a: Answer, b: Answer)
    requires ValidAnswer(a) && ValidAnswer(b) && BaselinePath(storeDir, key) !in files
    requires a.Mapping? && b.Mapping?
    ensures StoreAnswer(StoreAnswer(files, storeDir, key, a).files, storeDir, key, b).error.Some?
      <==> exists i, j :: 0 <= i < |a.entries| && 0 <= j < |b.entries| && a.entries[i].key == b.entries[j].key
  {
    RecaptureRaises(files, storeDir, key, a, b);
    SharedNames(a, b);
  }

  /** `get_baseline_answer`. A missing file is a failure whose message names
      `<key>.h5`; an unset results directory makes `os.path.join` raise
      `TypeError`. */
  function GetBaselineAnswer(files: Files, resultsDir: Option<string>, key: string): (r: Loaded)
    ensures r.Missing? <==> resultsDir.Some? && BaselinePath(resultsDir.value, key) !in files
    ensures r.Missing? ==> Mentions(r.message, key + Extension)
    ensures resultsDir.None? ==> r == LoadError(TypeError)
    ensures resultsDir.Some? && BaselinePath(resultsDir.value, key) in files ==>
      r == Read(files[BaselinePath(resultsDir.value, key)])
  {
    match resultsDir
    case None => LoadError(TypeError)
    case Some(dir) =>
      var path := BaselinePath(dir, key);
      if path !in files then Missing(MissingMessage(key + Extension))
      else Read(files[path])
  }
}

=== FILE: comparator.dfy ===
/** The comparator of `compare_answer_to_store`: a type-directed check of
    a candidate answer against a loaded baseline. It reports a mismatch as a
    value and raises only where Python itself raises. */
module Comparator {
  import opened Values
  import opened Baseline
  import Utf8

  /** The first discrepancy found. The source renders it as the text of
      the `AssertionError`; the rendering is not modelled. */
  datatype Mismatch =
    | MissingKey(key: string)
    | ShapeMismatch(expected: seq<nat>, actual: seq<nat>)
    | ElementMismatch(indices: seq<nat>)
    | BytesDiffer
    | TextDiffers
    | KindMismatch

  datatype Verdict =
    | Match
    | Differs(detail: Mismatch)
    | MissingBaseline(message: string)
    | Error(error: PyError)

  /** Shapes numpy compares: equal, or one side 0-d (broadcast to the other). */
  predicate Broadcastable(x: seq<nat>, y: seq<nat>)
  {
    x == [] || y == [] || x == y
  }

  /** Number of element positions compared. */
  function Extent(x: Tensor, y: Tensor): nat
  {
    if x.shape == [] then |y.elems| else |x.elems|
  }

  /** Element `i` of `t`, with a 0-d array repeating its only element. */
  function At(t: Tensor, i: nat): Element
    requires t.shape == [] || i < |t.elems|
  {
    if t.shape == [] then t.elems[0] else t.elems[i]
  }

  lemma ExtentCovers(x: Tensor, y: Tensor)
    requires Broadcastable(x.shape, y.shape)
    ensures x.shape == [] || Extent(x, y) <= |x.elems|
    ensures y.shape == [] || Extent(x, y) <= |y.elems|
  {
  }

  /** Reference definition of `np.testing.assert_array_equal` passing:
      shapes agree up to a 0-d side, and every compared position holds equal
      elements (NaN equal to NaN). */
  predicate SameValues(x: Tensor, y: Tensor)
  {
    && Broadcastable(x.shape, y.shape)
    && (ExtentCovers(x, y);
        forall i :: 0 <= i < Extent(x, y) ==> At(x, i) == At(y, i))
  }

  /** The positions at or after `i` where `x` and `y` differ, in increasing order. */
  function DifferingFrom(x: Tensor, y: Tensor, i: nat): (r: seq<nat>)
    requires Broadcastable(x.shape, y.shape) && i <= Extent(x, y)
    ensures forall k :: k in r <==> (ExtentCovers(x, y); i <= k < Extent(x, y) && At(x, k) != At(y, k))
    ensures forall a, b :: 0 <= a < b < |r| ==> r[a] < r[b]
    decreases Extent(x, y) - i
  {
    ExtentCovers(x, y);
    if i == Extent(x, y) then []
    else
      var rest := DifferingFrom(x, y, i + 1);
      assert forall a :: 0 <= a < |rest| ==> rest[a] in rest;
      if At(x, i) != At(y, i) then [i] + rest else rest
  }

  /** `np.testing.assert_array_equal(reference, result)`: a shape mismatch
      names both shapes; otherwise every differing position is listed. */
  function CompareArrays(x: Tensor, y: Tensor): (v: Verdict)
    ensures v.Match? || v.Differs?
    ensures v == Match <==> SameValues(x, y)
    ensures (v.Differs? && v.detail.ShapeMismatch?) <==> !Broadcastable(x.shape, y.shape)
    ensures v.Differs? && v.detail.ShapeMismatch? ==> v.detail == ShapeMismatch(x.shape, y.shape)
    ensures v.Differs? && !v.detail.ShapeMismatch? ==>
      v.detail.ElementMismatch? && |v.detail.indices| > 0
      && forall k :: k in v.detail.indices <==> (ExtentCovers(x, y); 0 <= k < Extent(x, y) && At(x, k) != At(y, k))
  {
    if !Broadcastable(x.shape, y.shape) then Differs(ShapeMismatch(x.shape, y.shape))
    else
      var d := DifferingFrom(x, y, 0);
      if d == [] then Match
      else
        assert d[0] in d;
        Differs(ElementMismatch(d))
  }

  /** A stored dataset against a candidate array; a byte payload never equals
      a numeric array. */
  function CompareStored(s: Stored, y: Tensor): (v: Verdict)
    ensures v.Match? || v.Differs?
    ensures v == Match <==> s.StoredArray? && SameValues(s.tensor, y)
  {
    match s
    case StoredArray(x) => CompareArrays(x, y)
    case StoredBytes(_) => Differs(KindMismatch)
  }

  /** One mapping key: `assert key in reference`, then the array check. */
  function EntryVerdict(m: map<string, Stored>, e: Entry): (v: Verdict)
    ensures v.Match? || v.Differs?
    ensures v == Match <==> e.key in m && m[e.key].StoredArray? && SameValues(m[e.key].tensor, e.value.tensor)
    ensures e.key !in m ==> v == Differs(MissingKey(e.key))
  {
    if e.key !in m then Differs(MissingKey(e.key)) else CompareStored(m[e.key], e.value.tensor)
  }

  /** The loop over the candidate's keys, in the candidate's order: the
      first key whose check fails decides the verdict. */
  function CompareEntries(m: map<string, Stored>, es: seq<Entry>): (v: Verdict)
    ensures v.Match? || v.Differs?
    ensures v == Match <==> forall i :: 0 <= i < |es| ==> EntryVerdict(m, es[i]) == Match
    ensures v != Match ==> exists i :: (0 <= i < |es| && v == EntryVerdict(m, es[i])
      && forall j :: 0 <= j < i ==> EntryVerdict(m, es[j]) == Match)
  {
    if es == [] then Match
    else
      var first := EntryVerdict(m, es[0]);
      if first != Match then first
      else
        var rest := CompareEntries(m, es[1..]);
        assert forall i :: 1 <= i < |es| ==> es[i] == es[1..][i - 1];
        rest
  }

  /** `compare_answer_to_store` once the baseline is loaded, dispatching on
      the candidate's variant. */
  function Compare(ref: Reference, cand: Answer): (v: Verdict)
    ensures !v.MissingBaseline?
    ensures cand.Mapping? && ref.Group? ==>
      (v == Match <==> forall i :: 0 <= i < |cand.entries| ==>
         var e := cand.entries[i];
         e.key in ref.members && ref.members[e.key].StoredArray?
         && SameValues(ref.members[e.key].tensor, e.value.tensor))
    ensures cand.Mapping? && cand.entries == [] ==> v == Match
    // a single-dataset baseline holds no keys: only an empty mapping passes,
    // and `key in bytes` raises
    ensures cand.Mapping? && ref.Single? ==> (v == Match <==> cand.entries == [])
    ensures cand.Mapping? && ref.Single? && ref.value.StoredBytes? && cand.entries != [] ==> v == Error(TypeError)
    ensures cand.Bytes? ==> (v == Match <==> ref == Single(StoredBytes(cand.bytes)))
    ensures cand.Text? ==>
      (v == Match <==> ref.Single? && ref.value.StoredBytes? && ref.value.bytes == Utf8.Encode(cand.text))
    ensures cand.Array? ==>
      (v == Match <==> ref.Single? && ref.value.StoredArray? && SameValues(ref.value.tensor, cand.value.tensor))
    ensures v.Error? ==> cand.Text? || (cand.Mapping? && ref.Single? && ref.value.StoredBytes?)
  {
    match cand
    case Mapping(es) =>
      (match ref
       case Group(m) => CompareEntries(m, es)
       case Single(StoredArray(_)) => if es == [] then Match else Differs(MissingKey(es[0].key))
       case Single(StoredBytes(_)) => if es == [] then Match else Error(TypeError))
    case Bytes(b) =>
      if ref == Single(StoredBytes(b)) then Match
      else if ref.Single? && ref.value.StoredBytes? then Differs(BytesDiffer)
      else Differs(KindMismatch)
    case Text(t) =>
      (match ref
       case Single(StoredBytes(b)) =>
         Utf8.DecodeMatchesIff(b, t);
         (match Utf8.Decode(b)
          case None => Error(UnicodeDecodeError)
          case Some(s) => if s == t then Match else Differs(TextDiffers))
       case _ => Error(AttributeError))
    case Array(w) =>
      match ref
      case Single(s) => CompareStored(s, w.tensor)
      case Group(_) => Differs(KindMismatch)
  }

  /** `compare_answer_to_store`: load the baseline, then compare. A missing
      file becomes a failure naming `<key>.h5`, and no comparison is made. */
  function CompareAnswerToStore(files: Files, resultsDir: Option<string>, key: string, cand: Answer): (v: Verdict)
    ensures v.MissingBaseline? <==> resultsDir.Some? && BaselinePath(resultsDir.value, key) !in files
    ensures v.MissingBaseline? ==> Mentions(v.message, key + Extension)
    ensures resultsDir.None? ==> v == Error(TypeError)
    ensures resultsDir.Some? && BaselinePath(resultsDir.value, key) in files ==>
      match Read(files[BaselinePath(resultsDir.value, key)])
      case Loaded(ref) => v == Compare(ref, cand)
      case LoadError(e) => v == Error(e)
      case Missing(_) => false
  {
    match GetBaselineAnswer(files, resultsDir, key)
    case Missing(msg) => MissingBaseline(msg)
    case LoadError(e) => Error(e)
    case Loaded(ref) => Compare(ref, cand)
  }

  /** Reference definition of what a verify run accepts once `a` has been
      captured: a candidate mapping needs each of its keys captured with
      equal values (extra captured keys are ignored, and an empty candidate
      passes); bytes and text are compared through their UTF-8 bytes; arrays
      by `SameValues`. */
  predicate Accepts(a: Answer, b: Answer)
  {
    match b
    case Mapping(fs) =>
      fs == [] || (a.Mapping? && forall f :: f in fs ==>
        exists e :: e in a.entries && e.key == f.key && SameValues(e.value.tensor, f.value.tensor))
    case Bytes(y) => (a.Bytes? && a.bytes == y) || (a.Text? && Utf8.Encode(a.text) == y)
    case Text(t) => (a.Text? && a.text == t) || (a.Bytes? && a.bytes == Utf8.Encode(t))
    case Array(w) => a.Array? && SameValues(a.value.tensor, w.tensor)
  }

  lemma EncodeInjective(s: string, t: string)
    requires Utf8.Encode(s) == Utf8.Encode(t)
    ensures s == t
  {
    Utf8.DecodeEncode(s);
    Utf8.DecodeEncode(t);
  }

  /** The mapping case of `ComparesAsAccepts`. */
  lemma MappingComparesAsAccepts(a: Answer, b: Answer)
    requires ValidAnswer(a) && Recoverable(a) && a.Mapping? && b.Mapping?
    ensures Read(Store(a)).Loaded?
    ensures Compare(Read(Store(a)).ref, b) == Match <==> Accepts(a, b)
  {
    StoreReadRoundTrip(a);
    if Compare(Read(Store(a)).ref, b) == Match {
      MatchIsAccepted(a, b);
    }
    if Accepts(a, b) {
      AcceptedMatches(a, b);
    }
  }

  lemma MatchIsAccepted(a: Answer, b: Answer)
    requires ValidAnswer(a) && Recoverable(a) && a.Mapping? && b.Mapping?
    requires Read(Store(a)).Loaded? && Compare(Read(Store(a)).ref, b) == Match
    ensures Accepts(a, b)
  {
    MappingRoundTrip(a);
    var m := Read(Store(a)).ref.members;
    FoundEntries(m, a.entries, b.entries);
  }

  /** Candidate entries that all pass against the arrays of `es` each have
      an entry of `es` with the same key and values. */
  lemma FoundEntries(m: map<string, Stored>, es: seq<Entry>, fs: seq<Entry>)
    requires m.Keys == KeySet(es)
    requires forall i :: 0 <= i < |es| ==> m[es[i].key] == StoredArray(es[i].value.tensor)
    requires CompareEntries(m, fs) == Match
    ensures forall f :: f in fs ==> exists e :: e in es && e.key == f.key && SameValues(e.value.tensor, f.value.tensor)
  {
    forall f | f in fs
      ensures exists e :: e in es && e.key == f.key && SameValues(e.value.tensor, f.value.tensor)
    {
      var j :| 0 <= j < |fs| && fs[j] == f;
      assert EntryVerdict(m, fs[j]) == Match;
      var i := FindKey(es, f.key);
      assert es[i] in es;
    }
  }

  lemma AcceptedMatches(a: Answer, b: Answer)
    requires ValidAnswer(a) && Recoverable(a) && a.Mapping? && b.Mapping? && Accepts(a, b)
    ensures Read(Store(a)).Loaded? && Compare(Read(Store(a)).ref, b) == Match
  {
    MappingRoundTrip(a);
    var m := Read(Store(a)).ref.members;
    if b.entries != [] {
      EntriesFound(m, a.entries, b.entries);
    }
  }

  /** Every candidate entry passes against a baseline holding the arrays of
      entries with the same key and values. */
  lemma EntriesFound(m: map<string, Stored>, es: seq<Entry>, fs: seq<Entry>)
    requires forall i :: 0 <= i < |es| ==> es[i].key in m && m[es[i].key] == StoredArray(es[i].value.tensor)
    requires forall f :: f in fs ==> exists e :: e in es && e.key == f.key && SameValues(e.value.tensor, f.value.tensor)
    ensures CompareEntries(m, fs) == Match
  {
    forall j | 0 <= j < |fs| ensures EntryVerdict(m, fs[j]) == Match {
      assert fs[j] in fs;
      var e :| e in es && e.key == fs[j].key && SameValues(e.value.tensor, fs[j].value.tensor);
      var i :| 0 <= i < |es| && es[i] == e;
    }
  }

  /** Comparing `b` with what `a` reads back as is exactly `Accepts(a, b)`. */
  lemma ComparesAsAccepts(a: Answer, b: Answer)
    requires ValidAnswer(a) && Recoverable(a) && ValidAnswer(b)
    ensures Read(Store(a)).Loaded?
    ensures Compare(Read(Store(a)).ref, b) == Match <==> Accepts(a, b)
  {
    StoreReadRoundTrip(a);
    if b.Mapping? {
      if a.Mapping? {
        MappingComparesAsAccepts(a, b);
      }
    } else if b.Text? && a.Text? && Utf8.Encode(a.text) == Utf8.Encode(b.text) {
      EncodeInjective(a.text, b.text);
    }
  }

  /** Capture `a` into a directory, then verify `b` against the same
      directory: the verdict is a pass exactly when `Accepts(a, b)`. */
  lemma VerifyAfterCapture(files: Files, dir: string, key: string, a: Answer, b: Answer)
    requires ValidAnswer(a) && Recoverable(a) && ValidAnswer(b) && BaselinePath(dir, key) !in files
    ensures CompareAnswerToStore(StoreAnswer(files, dir, key, a).files, Some(dir), key, b) == Match <==> Accepts(a, b)
  {
    ComparedWithCapture(files, dir, key, a, b);
    ComparesAsAccepts(a, b);
  }

  /** Verifying against a fresh capture compares with what the capture
      reads back as. */
  lemma ComparedWithCapture(files: Files, dir: string, key: string, a: Answer, b: Answer)
    requires ValidAnswer(a) && Recoverable(a) && BaselinePath(dir, key) !in files
    ensures Read(Store(a)).Loaded?
    ensures CompareAnswerToStore(StoreAnswer(files, dir, key, a).files, Some(dir), key, b)
      == Compare(Read(Store(a)).ref, b)
  {
    StoreReadRoundTrip(a);
    var fs := StoreAnswer(files, dir, key, a).files;
    assert fs[BaselinePath(dir, key)] == Store(a);
  }

  /** A test verified against the baseline it has just captured passes. */
  lemma CapturedAnswerPasses(files: Files, dir: string, key: string, a: Answer)
    requires ValidAnswer(a) && Recoverable(a) && BaselinePath(dir, key) !in files
    ensures CompareAnswerToStore(StoreAnswer(files, dir, key, a).files, Some(dir), key, a) == Match
  {
    VerifyAfterCapture(files, dir, key, a, a);
    match a
    case Mapping(es) =>
      forall f | f in es
        ensures exists e :: e in es && e.key == f.key && SameValues(e.value.tensor, f.value.tensor)
      {
        assert SameValues(f.value.tensor, f.value.tensor);
      }
    case _ =>
  }
}

=== FILE: controller.dfy ===
/** The per-test mode controller: the collection hook that skips answer
    tests when the feature is off, the interceptor that records a test's
    return value under its key, and the `pytest_runtest_call` hook that
    captures a baseline or verifies against one. */
module Controller {
  import opened Values
  import opened Identity
  import opened Baseline
  import opened Comparator

  datatype Mark = AnswerTest | Skip(reason: string) | OtherMark(name: string)

  /** A collected test: its identity, its own markers (the function's, then
      any added during collection), the markers it inherits from its classes
      and module (closest first), and its keywords (marker names, node names
      and extra keywords of the test and its parents). */
  datatype Item = Item(id: TestId, own: seq<Mark>, inherited: seq<Mark>, keywords: set<string>)

  /** The three command-line options: `--answers`, `--answers-store`,
      `--answers-dir`. */
  datatype Config = Config(answers: bool, storeDir: Option<string>, resultsDir: Option<string>)

  /** The plugin's mutable parts: the return values recorded so far (never
      cleared during a session) and the baseline files on disk. */
  datatype State = State(returnValue: map<string, Answer>, files: Files)

  /** What the test body did when called. */
  datatype Execution = Returned(value: Answer) | Raised(error: PyError)

  datatype Message = Literal(text: string) | Detail(mismatch: Mismatch)

  /** The report: `FailedNoTrace` is `pytest.fail(msg, pytrace=False)`;
      `Failed` is an exception reported with its trace. */
  datatype Outcome =
    | Passed
    | Skipped(reason: string)
    | Failed(error: PyError)
    | FailedNoTrace(message: Message)

  datatype Step = Step(outcome: Outcome, state: State)

  const AnswerMarker := "answer_test"
  const SkipMarker := "skip"
  const DisabledReason := "need --answers option to run"
  const CaptureReason := "Skipped test, since generating answer."

  /** `item.iter_markers()`: the test's own markers before inherited ones. */
  function Marks(item: Item): seq<Mark>
  {
    item.own + item.inherited
  }

  predicate ValidState(st: State)
  {
    forall k :: k in st.returnValue ==> ValidAnswer(st.returnValue[k])
  }

  predicate ValidExecution(exec: Execution)
  {
    exec.Returned? ==> ValidAnswer(exec.value)
  }

  /** The item after `pytest_collection_modifyitems` saw it. */
  function Collected(cfg: Config, item: Item): (r: Item)
    ensures r.id == item.id && r.inherited == item.inherited && item.own <= r.own
    ensures r != item <==> !cfg.answers && AnswerMarker in item.keywords
    ensures r != item ==> r.own == item.own + [Skip(DisabledReason)] && r.keywords == item.keywords + {SkipMarker}
  {
    if !cfg.answers && AnswerMarker in item.keywords
    then
      var r := item.(own := item.own + [Skip(DisabledReason)], keywords := item.keywords + {SkipMarker});
      assert |r.own| > |item.own|;
      r
    else item
  }

  /** `pytest_collection_modifyitems`: with `--answers` nothing changes;
      without it, exactly the items carrying the `answer_test` keyword get a
      skip marker with the fixed reason appended to their own markers, ahead
      of anything inherited. */
  function ModifyItems(cfg: Config, items: seq<Item>): (r: seq<Item>)
    ensures |r| == |items|
    ensures cfg.answers ==> r == items
    ensures forall i :: 0 <= i < |items| ==>
      r[i].id == items[i].id && r[i].inherited == items[i].inherited && items[i].own <= r[i].own
    ensures forall i :: 0 <= i < |items| ==>
      (r[i] != items[i] <==> !cfg.answers && AnswerMarker in items[i].keywords)
    ensures forall i :: 0 <= i < |items| && r[i] != items[i] ==>
      r[i].own == items[i].own + [Skip(DisabledReason)] && r[i].keywords == items[i].keywords + {SkipMarker}
    decreases |items|
  {
    if items == [] then []
    else
      var head := Collected(cfg, items[0]);
      assert head != items[0] ==> |head.own| > |items[0].own|;
      var rest := ModifyItems(cfg, items[1..]);
      assert forall i :: 1 <= i < |items| ==> items[i] == items[1..][i - 1];
      [head] + rest
  }

  /** The reason of the first skip marker, which pytest applies at setup. */
  function FirstSkip(marks: seq<Mark>): (r: Option<string>)
    ensures r.None? <==> forall i :: 0 <= i < |marks| ==> !marks[i].Skip?
    ensures r.Some? ==> exists i :: (0 <= i < |marks| && marks[i] == Skip(r.value)
      && forall j :: 0 <= j < i ==> !marks[j].Skip?)
  {
    if marks == [] then None
    else if marks[0].Skip? then Some(marks[0].reason)
    else
      var r := FirstSkip(marks[1..]);
      assert forall i :: 1 <= i < |marks| ==> marks[i] == marks[1..][i - 1];
      r
  }

  /** Skips are looked for in the first list, then in the second. */
  lemma {:induction false} FirstSkipConcat(a: seq<Mark>, b: seq<Mark>)
    ensures FirstSkip(a + b) == if FirstSkip(a).Some? then FirstSkip(a) else FirstSkip(b)
    decreases |a|
  {
    if a == [] {
      assert a + b == b;
    } else {
      assert (a + b)[0] == a[0] && (a + b)[1..] == a[1..] + b;
      FirstSkipConcat(a[1..], b);
    }
  }

  /** The wrapped test function: its return value is recorded under `key`;
      a raising test records nothing. */
  function Intercept(rv: map<string, Answer>, key: string, exec: Execution): (r: map<string, Answer>)
    ensures exec.Returned? ==> r.Keys == rv.Keys + {key} && r[key] == exec.value
    ensures exec.Raised? ==> r == rv
    ensures forall k :: k in rv && k != key ==> k in r && r[k] == rv[k]
  {
    match exec
    case Returned(v) => rv[key := v]
    case Raised(_) => rv
  }

  /** What pytest reports for a call nobody intercepted. */
  function Plain(exec: Execution): (o: Outcome)
    ensures o == Passed <==> exec.Returned?
    ensures exec.Raised? ==> o == Failed(exec.error)
  {
    match exec
    case Returned(_) => Passed
    case Raised(e) => Failed(e)
  }

  /** How a verdict of the comparator surfaces. A pass leaves the test's own
      outcome in place. */
  function Surface(v: Verdict, exec: Execution): (o: Outcome)
    ensures o == Passed <==> v == Match && exec.Returned?
    ensures o.FailedNoTrace? <==> v.Differs? || v.MissingBaseline?
    ensures v.Differs? ==> o == FailedNoTrace(Detail(v.detail))
    ensures v.MissingBaseline? ==> o == FailedNoTrace(Literal(v.message))
    ensures v.Error? ==> o == Failed(v.error)
    ensures v == Match ==> o == Plain(exec)
  {
    match v
    case Match => Plain(exec)
    case Differs(d) => FailedNoTrace(Detail(d))
    case MissingBaseline(msg) => FailedNoTrace(Literal(msg))
    case Error(e) => Failed(e)
  }

  /** `AnswerComparison.pytest_runtest_call` around one call of the test. */
  function RuntestCall(storeDir: Option<string>, resultsDir: Option<string>, st: State, item: Item, exec: Execution): (s: Step)
    requires ValidState(st) && ValidExecution(exec)
    ensures ValidState(s.state)
    // tests without the marker run untouched
    ensures AnswerTest !in Marks(item) ==> s == Step(Plain(exec), st)
    // the wrapper records the return value and leaves other keys alone
    ensures AnswerTest in Marks(item) ==> s.state.returnValue == Intercept(st.returnValue, TestKey(item.id), exec)
    // nothing recorded under the key: no verdict, the test's own outcome stands
    ensures AnswerTest in Marks(item) && TestKey(item.id) !in s.state.returnValue ==>
      s == Step(Plain(exec), st)
    // capture mode: store the recorded answer, then skip with the fixed
    // message; a dataset name already in the file raises instead
    ensures AnswerTest in Marks(item) && TestKey(item.id) in s.state.returnValue && storeDir.Some? ==>
      var w := StoreAnswer(st.files, storeDir.value, TestKey(item.id), s.state.returnValue[TestKey(item.id)]);
      && s.state.files == w.files
      && (w.error.None? ==> s.outcome == Skipped(CaptureReason))
      && (w.error.Some? ==> s.outcome == Failed(w.error.value))
    // verify mode: fail without a trace iff the comparator gave a message
    ensures AnswerTest in Marks(item) && TestKey(item.id) in s.state.returnValue && storeDir.None? ==>
      s.state.files == st.files
      && var v := CompareAnswerToStore(st.files, resultsDir, TestKey(item.id), s.state.returnValue[TestKey(item.id)]);
         (s.outcome.FailedNoTrace? <==> v.Differs? || v.MissingBaseline?)
         && (s.outcome == Passed <==> v == Match && exec.Returned?)
         && (v.Differs? ==> s.outcome == FailedNoTrace(Detail(v.detail)))
         && (v.MissingBaseline? ==> s.outcome == FailedNoTrace(Literal(v.message)))
         && (v.Error? ==> s.outcome == Failed(v.error))
         && (v == Match ==> s.outcome == Plain(exec))
  {
    if AnswerTest !in Marks(item) then Step(Plain(exec), st)
    else
      var key := TestKey(item.id);
      var rv := Intercept(st.returnValue, key, exec);
      if key !in rv then Step(Plain(exec), st)
      else
        var answer := rv[key];
        match storeDir
        case Some(dir) =>
          var w := StoreAnswer(st.files, dir, key, answer);
          Step(if w.error.None? then Skipped(CaptureReason) else Failed(w.error.value), State(rv, w.files))
        case None =>
          var v := CompareAnswerToStore(st.files, resultsDir, key, answer);
          Step(Surface(v, exec), State(rv, st.files))
  }

  /** One test through the session: a skip marker wins at setup; otherwise
      the plugin's hook runs when `--answers` registered it. */
  function RunItem(cfg: Config, st: State, item: Item, exec: Execution): (s: Step)
    requires ValidState(st) && ValidExecution(exec)
    ensures ValidState(s.state)
    ensures FirstSkip(Marks(item)).Some? ==> s == Step(Skipped(FirstSkip(Marks(item)).value), st)
    ensures FirstSkip(Marks(item)).None? && (!cfg.answers || AnswerTest !in Marks(item)) ==>
      s == Step(Plain(exec), st)
    ensures !cfg.answers ==> s.state == st
    ensures cfg.storeDir.None? ==> s.state.files == st.files
    ensures cfg.answers && FirstSkip(Marks(item)).None? ==>
      s == RuntestCall(cfg.storeDir, cfg.resultsDir, st, item, exec)
    ensures (cfg.answers && cfg.storeDir.Some? && FirstSkip(Marks(item)).None? && AnswerTest in Marks(item)
             && exec.Returned?) ==> s.outcome in {Skipped(CaptureReason), Failed(NameTaken)}
  {
    match FirstSkip(Marks(item))
    case Some(reason) => Step(Skipped(reason), st)
    case None =>
      if cfg.answers then RuntestCall(cfg.storeDir, cfg.resultsDir, st, item, exec)
      else Step(Plain(exec), st)
  }

  /** Collected items run in order, sharing the plugin's state. */
  function RunAll(cfg: Config, st: State, items: seq<Item>, execs: seq<Execution>): (r: (seq<Outcome>, State))
    requires |items| == |execs| && ValidState(st)
    requires forall i :: 0 <= i < |execs| ==> ValidExecution(execs[i])
    ensures |r.0| == |items| && ValidState(r.1)
    ensures !cfg.answers ==> r.1 == st
    ensures cfg.storeDir.None? ==> r.1.files == st.files
    decreases |items|
  {
    if items == [] then ([], st)
    else
      var s := RunItem(cfg, st, items[0], execs[0]);
      var rest := RunAll(cfg, s.state, items[1..], execs[1..]);
      ([s.outcome] + rest.0, rest.1)
  }

  /** Test `i` reports what `RunItem` gives it in the state the tests
      before it left behind. */
  lemma {:induction false} RunAllStepwise(cfg: Config, st: State, items: seq<Item>, execs: seq<Execution>)
    requires |items| == |execs| && ValidState(st)
    requires forall i :: 0 <= i < |execs| ==> ValidExecution(execs[i])
    ensures forall i :: 0 <= i < |items| ==>
      RunAll(cfg, st, items, execs).0[i]
        == RunItem(cfg, RunAll(cfg, st, items[..i], execs[..i]).1, items[i], execs[i]).outcome
    decreases |items|
  {
    if items != [] {
      var s := RunItem(cfg, st, items[0], execs[0]);
      var tl, te := items[1..], execs[1..];
      RunAllStepwise(cfg, s.state, tl, te);
      var r := RunAll(cfg, st, items, execs);
      assert r.0 == [s.outcome] + RunAll(cfg, s.state, tl, te).0;
      forall i | 0 <= i < |items|
        ensures r.0[i] == RunItem(cfg, RunAll(cfg, st, items[..i], execs[..i]).1, items[i], execs[i]).outcome
      {
        if i == 0 {
          assert items[..0] == [] && execs[..0] == [];
        } else {
          assert items[..i][1..] == tl[..i - 1] && execs[..i][1..] == te[..i - 1];
          assert items[..i][0] == items[0] && execs[..i][0] == execs[0];
          assert RunAll(cfg, st, items[..i], execs[..i]).1 == RunAll(cfg, s.state, tl[..i - 1], te[..i - 1]).1;
          assert items[i] == tl[i - 1] && execs[i] == te[i - 1];
        }
      }
    }
  }

  /** Per test: a skip marker gives its first reason; an unmarked test, or
      any test without `--answers`, has its own outcome; a returning answer
      test in capture mode is skipped with the capture message or fails on
      a name clash. */
  lemma RunAllOutcomes(cfg: Config, st: State, items: seq<Item>, execs: seq<Execution>)
    requires |items| == |execs| && ValidState(st)
    requires forall i :: 0 <= i < |execs| ==> ValidExecution(execs[i])
    ensures forall i :: 0 <= i < |items| && FirstSkip(Marks(items[i])).Some? ==>
      RunAll(cfg, st, items, execs).0[i] == Skipped(FirstSkip(Marks(items[i])).value)
    ensures forall i :: (0 <= i < |items| && FirstSkip(Marks(items[i])).None?
                          && (!cfg.answers || AnswerTest !in Marks(items[i]))) ==>
      RunAll(cfg, st, items, execs).0[i] == Plain(execs[i])
    ensures forall i :: (0 <= i < |items| && cfg.answers && cfg.storeDir.Some? && FirstSkip(Marks(items[i])).None?
                          && AnswerTest in Marks(items[i]) && execs[i].Returned?) ==>
      RunAll(cfg, st, items, execs).0[i] in {Skipped(CaptureReason), Failed(NameTaken)}
  {
    RunAllStepwise(cfg, st, items, execs);
  }

  /** A session: collection, then every item in order. With `--answers`
      collection changes nothing, so the session is the plain run of the
      items; without it no state changes. */
  function RunSession(cfg: Config, st: State, items: seq<Item>, execs: seq<Execution>): (r: (seq<Outcome>, State))
    requires |items| == |execs| && ValidState(st)
    requires forall i :: 0 <= i < |execs| ==> ValidExecution(execs[i])
    ensures |r.0| == |items| && ValidState(r.1)
    ensures cfg.answers ==> r == RunAll(cfg, st, items, execs)
    ensures !cfg.answers ==> r.1 == st
    ensures cfg.storeDir.None? ==> r.1.files == st.files
  {
    RunAll(cfg, st, ModifyItems(cfg, items), execs)
  }

  /** What a test reports when `--answers` is off: a skip among its own
      markers wins, then the fixed skip of an answer test, then a skip
      inherited from its classes or module; otherwise it runs as usual. */
  function DisabledOutcome(item: Item, exec: Execution): Outcome
  {
    match FirstSkip(item.own)
    case Some(reason) => Skipped(reason)
    case None =>
      if AnswerMarker in item.keywords then Skipped(DisabledReason)
      else
        match FirstSkip(item.inherited)
        case Some(reason) => Skipped(reason)
        case None => Plain(exec)
  }

  /** With the feature off, each test reports `DisabledOutcome` and no
      baseline is touched. */
  lemma DisabledSessionSkipsAnswerTests(cfg: Config, st: State, items: seq<Item>, execs: seq<Execution>)
    requires !cfg.answers
    requires |items| == |execs| && ValidState(st)
    requires forall i :: 0 <= i < |execs| ==> ValidExecution(execs[i])
    ensures RunSession(cfg, st, items, execs).1 == st
    ensures forall i :: 0 <= i < |items| ==>
      RunSession(cfg, st, items, execs).0[i] == DisabledOutcome(items[i], execs[i])
  {
    var collected := ModifyItems(cfg, items);
    forall i | 0 <= i < |items|
      ensures FirstSkip(Marks(collected[i])) == CollectedSkip(items[i])
    {
      DisabledFirstSkip(cfg, items[i], collected[i]);
    }
    RunAllOutcomes(cfg, st, collected, execs);
  }

  /** The skip that setup applies to a test collected with the feature off. */
  function CollectedSkip(item: Item): Option<string>
  {
    match FirstSkip(item.own)
    case Some(reason) => Some(reason)
    case None => if AnswerMarker in item.keywords then Some(DisabledReason) else FirstSkip(item.inherited)
  }

  lemma DisabledFirstSkip(cfg: Config, item: Item, collected: Item)
    requires !cfg.answers && collected == Collected(cfg, item)
    ensures FirstSkip(Marks(collected)) == CollectedSkip(item)
  {
    if AnswerMarker in item.keywords {
      var fixed := [Skip(DisabledReason)];
      assert Marks(collected) == (item.own + fixed) + item.inherited;
      FirstSkipConcat(item.own + fixed, item.inherited);
      FirstSkipConcat(item.own, fixed);
    } else {
      FirstSkipConcat(item.own, item.inherited);
    }
  }

  /** An answer test whose class or module is marked skip for another
      reason, run without `--answers`: the fixed reason is reported, since
      the added marker comes before inherited ones. */
  lemma InheritedSkipYieldsToDisabledReason(st: State, item: Item, exec: Execution)
    requires ValidState(st) && ValidExecution(exec)
    requires AnswerMarker in item.keywords && FirstSkip(item.own).None?
    ensures RunSession(Config(false, None, None), st, [item], [exec]).0 == [Skipped(DisabledReason)]
  {
    DisabledSessionSkipsAnswerTests(Config(false, None, None), st, [item], [exec]);
  }

  /** The key as written puts `m.py::TestOuter1::TestInner::test_x` and
      `m.py::TestOuter2::TestInner::test_x` into one file: once the first has
      captured a plain answer, the second raises `ValueError`. */
  lemma NestedCapturesClashAsWritten(files: Files, dir: string, a: Answer, b: Answer)
    requires ValidAnswer(a) && ValidAnswer(b) && !a.Mapping? && !b.Mapping?
    requires BaselinePath(dir, WrittenKey(NestedOne)) !in files
    ensures var first := StoreAnswer(files, dir, WrittenKey(NestedOne), a);
      && first.error.None?
      && StoreAnswer(first.files, dir, WrittenKey(NestedTwo), b).error == Some(NameTaken)
  {
    NestedClassesCollide();
    RecaptureRaisesForData(files, dir, WrittenKey(NestedOne), a, b);
  }

  /** With every class in the key, the same two tests capture into separate
      files and both captures succeed. */
  lemma NestedCapturesSeparate(files: Files, dir: string, a: Answer, b: Answer)
    requires ValidAnswer(a) && ValidAnswer(b)
    requires BaselinePath(dir, TestKey(NestedOne)) !in files && BaselinePath(dir, TestKey(NestedTwo)) !in files
    ensures var first := StoreAnswer(files, dir, TestKey(NestedOne), a);
      && first.error.None?
      && StoreAnswer(first.files, dir, TestKey(NestedTwo), b).error.None?
  {
    NestedClassesCollide();
    var k1, k2 := TestKey(NestedOne), TestKey(NestedTwo);
    var p1, p2 := BaselinePath(dir, k1), BaselinePath(dir, k2);
    assert p1 != p2 by {
      assert k1[0] == 'm' && k2[0] == 'm';
      if p1 == p2 {
        BaselinePathInjective(dir, k1, k2);
      }
    }
    var first := StoreAnswer(files, dir, k1, a);
    assert first.error.None? && first.files.Keys == files.Keys + {p1};
    assert p2 !in first.files;
  }

  /** The hook keys by every class, so a capture run of both nested tests
      reports both as captured. */
  lemma NestedTestsBothCaptured(st: State, dir: string, a: Answer, b: Answer)
    requires ValidState(st) && ValidAnswer(a) && ValidAnswer(b)
    requires BaselinePath(dir, TestKey(NestedOne)) !in st.files && BaselinePath(dir, TestKey(NestedTwo)) !in st.files
    ensures RunAll(Config(true, Some(dir), None), st,
                   [Item(NestedOne, [AnswerTest], [], {AnswerMarker}), Item(NestedTwo, [AnswerTest], [], {AnswerMarker})],
                   [Returned(a), Returned(b)]).0
      == [Skipped(CaptureReason), Skipped(CaptureReason)]
  {
    var cfg := Config(true, Some(dir), None);
    var one, two := Item(NestedOne, [AnswerTest], [], {AnswerMarker}), Item(NestedTwo, [AnswerTest], [], {AnswerMarker});
    NestedCapturesSeparate(st.files, dir, a, b);
    var s1 := RunItem(cfg, st, one, Returned(a));
    CaptureStep(dir, st, one, a);
    var s2 := RunItem(cfg, s1.state, two, Returned(b));
    CaptureStep(dir, s1.state, two, b);
    TwoItemRun(cfg, st, one, two, Returned(a), Returned(b));
  }

  /** A plainly marked test returning `a` in capture mode goes through the
      capture of `a` under its key. */
  lemma CaptureStep(dir: string, st: State, item: Item, a: Answer)
    requires ValidState(st) && ValidAnswer(a)
    requires item.own == [AnswerTest] && item.inherited == []
    ensures var w := StoreAnswer(st.files, dir, TestKey(item.id), a);
      var s := RunItem(Config(true, Some(dir), None), st, item, Returned(a));
      && s.state.files == w.files
      && s.outcome == if w.error.None? then Skipped(CaptureReason) else Failed(w.error.value)
  {
    assert Marks(item) == [AnswerTest];
  }

  lemma TwoItemRun(cfg: Config, st: State, one: Item, two: Item, e1: Execution, e2: Execution)
    requires ValidState(st) && ValidExecution(e1) && ValidExecution(e2)
    ensures var s1 := RunItem(cfg, st, one, e1);
      RunAll(cfg, st, [one, two], [e1, e2]).0 == [s1.outcome, RunItem(cfg, s1.state, two, e2).outcome]
  {
    var s1 := RunItem(cfg, st, one, e1);
    var s2 := RunItem(cfg, s1.state, two, e2);
    assert [one, two][1..] == [two] && [e1, e2][1..] == [e2];
    assert RunAll(cfg, s1.state, [two], [e2]).0 == [s2.outcome];
  }

  /** An answer test captured into a directory without its baseline, then
      run in verify mode against that directory, passes exactly when the
      second return value is accepted against the first; the capture run
      itself is reported skipped. */
  lemma CaptureThenVerify(st: State, item: Item, dir: string, a: Answer, b: Answer)
    requires ValidState(st) && ValidAnswer(a) && ValidAnswer(b) && Recoverable(a)
    requires AnswerTest in Marks(item) && FirstSkip(Marks(item)).None?
    requires BaselinePath(dir, TestKey(item.id)) !in st.files
    ensures var first := RunItem(Config(true, Some(dir), None), st, item, Returned(a));
      && first.outcome == Skipped(CaptureReason)
      && (RunItem(Config(true, None, Some(dir)), first.state, item, Returned(b)).outcome == Passed
          <==> Accepts(a, b))
  {
    var key := TestKey(item.id);
    var first := RunItem(Config(true, Some(dir), None), st, item, Returned(a));
    assert first.state.files == StoreAnswer(st.files, dir, key, a).files;
    VerifyAfterCapture(st.files, dir, key, a, b);
  }

  /** A marked test that raises reuses a value recorded under its key by an
      earlier run of the same test: the map is never cleared. */
  lemma RaisingTestReusesEarlierAnswer(resultsDir: Option<string>, st: State, item: Item, e: PyError)
    requires ValidState(st) && AnswerTest in Marks(item) && TestKey(item.id) in st.returnValue
    ensures RuntestCall(None, resultsDir, st, item, Raised(e)).outcome
      == Surface(CompareAnswerToStore(st.files, resultsDir, TestKey(item.id), st.returnValue[TestKey(item.id)]), Raised(e))
  {
  }
}

=== FILE: identity.dfy ===
/** The artifact key of a test: its module path as directories, then
    `Outer.Inner.name` for a test inside classes, or `name` otherwise. */
module Identity {
  import opened Values

  /** The static identity of a collected test. `classes` is the chain of
      enclosing classes, outermost first; pytest's `item.cls` is the last. */
  datatype TestId = TestId(moduleName: string, classes: seq<string>, name: string)

  /** `moduleName.replace(".", "/")`. */
  function ModulePath(moduleName: string): (r: string)
    ensures |r| == |moduleName|
    ensures forall i :: 0 <= i < |moduleName| ==> r[i] == if moduleName[i] == '.' then '/' else moduleName[i]
  {
    if moduleName == [] then []
    else [if moduleName[0] == '.' then '/' else moduleName[0]] + ModulePath(moduleName[1..])
  }

  /** `os.path.join(a, b)` on POSIX: an absolute `b` wins, otherwise one `/`
      separates the parts unless `a` is empty or already ends with one. */
  function Join(a: string, b: string): (r: string)
    ensures |b| > 0 && b[0] == '/' ==> r == b
    ensures (|b| == 0 || b[0] != '/') ==>
      |a| + |b| <= |r| <= |a| + |b| + 1 && r[..|a|] == a && r[|r| - |b|..] == b
    ensures (|b| == 0 || b[0] != '/') && a != [] ==> r[|r| - |b| - 1] == '/'
  {
    if |b| > 0 && b[0] == '/' then b
    else if a == [] || a[|a| - 1] == '/' then a + b
    else a + "/" + b
  }

  /** `item.cls`: the innermost enclosing class, if any. */
  function InnermostClass(id: TestId): (c: Option<string>)
    ensures c.None? <==> id.classes == []
    ensures c.Some? ==> c.value in id.classes
  {
    if id.classes == [] then None else Some(id.classes[|id.classes| - 1])
  }

  /** The same test with every enclosing class but the innermost dropped. */
  function Flattened(id: TestId): (f: TestId)
    ensures f.moduleName == id.moduleName && f.name == id.name
    ensures |f.classes| <= 1 && (f.classes == [] <==> id.classes == [])
    ensures |id.classes| <= 1 ==> f == id
  {
    match InnermostClass(id)
    case Some(c) => id.(classes := [c])
    case None => id
  }

  /** The file-name part as the source builds it: only the innermost class
      is named, so it is the stem of the flattened test. */
  function WrittenStem(id: TestId): (s: string)
    ensures s == Stem(Flattened(id))
  {
    FlatStem(Flattened(id));
    match InnermostClass(id)
    case Some(c) => c + "." + id.name
    case None => id.name
  }

  lemma FlatStem(id: TestId)
    ensures id.classes == [] ==> Stem(id) == id.name
    ensures |id.classes| == 1 ==> Stem(id) == id.classes[0] + "." + id.name
  {
    if |id.classes| == 1 {
      assert id.classes[1..] == [];
      assert Qualified(id.classes[1..], id.name) == id.name;
    }
  }

  /** `generate_test_name` as written: the full key of the flattened test,
      which for a test in at most one class is its own full key. */
  function WrittenKey(id: TestId): (r: string)
    ensures r == TestKey(Flattened(id))
    ensures |id.classes| <= 1 ==> r == TestKey(id)
  {
    Join(ModulePath(id.moduleName), WrittenStem(id))
  }

  /** The class path and the test name, joined by dots. */
  function Qualified(classes: seq<string>, name: string): string
    decreases |classes|
  {
    if classes == [] then name else classes[0] + "." + Qualified(classes[1..], name)
  }

  function Stem(id: TestId): string
  {
    Qualified(id.classes, id.name)
  }

  /** The artifact key with every enclosing class named. It is what the rest
      of the model uses. For a well-named test it is the module's
      directories, one slash, then the stem, which holds no further slash. */
  function TestKey(id: TestId): (r: string)
    ensures WellNamed(id) ==> r == ModulePath(id.moduleName) + "/" + Stem(id) && Free(Stem(id), '/')
  {
    WellNamedParts(id);
    Join(ModulePath(id.moduleName), Stem(id))
  }

  lemma WellNamedParts(id: TestId)
    ensures WellNamed(id) ==> Free(Stem(id), '/')
    ensures WellNamed(id) ==>
      |ModulePath(id.moduleName)| > 0 && ModulePath(id.moduleName)[|id.moduleName| - 1] != '/'
  {
    if WellNamed(id) {
      QualifiedFree(id.classes, id.name);
    }
  }

  predicate Free(s: string, ch: char)
  {
    forall i :: 0 <= i < |s| ==> s[i] != ch
  }

  /** A Python module name: non-empty, no slash, not ending in a dot. */
  predicate IsModuleName(m: string)
  {
    |m| > 0 && m[|m| - 1] != '.' && Free(m, '/')
  }

  /** A class name: an identifier, so no dot, slash or bracket. */
  predicate ClassName(c: string)
  {
    Free(c, '.') && Free(c, '/') && Free(c, '[')
  }

  /** A test name: a function identifier, possibly followed by a bracketed
      parameter id; any dot comes after the bracket. */
  predicate TestName(n: string)
  {
    Free(n, '/') && forall i :: 0 <= i < |n| && n[i] == '.' ==> exists j :: 0 <= j < i && n[j] == '['
  }

  predicate WellNamed(id: TestId)
  {
    IsModuleName(id.moduleName) && TestName(id.name)
    && forall i :: 0 <= i < |id.classes| ==> ClassName(id.classes[i])
  }

  /** A dotted path of slash-free parts is slash-free. */
  lemma {:induction false} QualifiedFree(classes: seq<string>, name: string)
    requires forall i :: 0 <= i < |classes| ==> Free(classes[i], '/')
    requires Free(name, '/')
    ensures Free(Qualified(classes, name), '/')
    decreases |classes|
  {
    if classes != [] {
      var c := classes[0];
      var rest := Qualified(classes[1..], name);
      QualifiedFree(classes[1..], name);
      var s := Qualified(classes, name);
      assert s == c + "." + rest;
      forall i | 0 <= i < |s| ensures s[i] != '/' {
        if i < |c| {
          assert s[i] == c[i];
        } else if i > |c| {
          assert s[i] == rest[i - |c| - 1];
        }
      }
    }
  }

  /** Index of the first `ch` in `s`, or `|s|` when there is none. */
  function FirstOf(s: string, ch: char): (r: nat)
    ensures r <= |s|
    ensures r < |s| ==> s[r] == ch
    ensures forall j :: 0 <= j < r ==> s[j] != ch
  {
    if s == [] then 0 else if s[0] == ch then 0 else 1 + FirstOf(s[1..], ch)
  }

  /** Index of the last `ch` in `s`, or -1 when there is none. */
  function LastOf(s: string, ch: char): (r: int)
    ensures -1 <= r < |s|
    ensures r >= 0 ==> s[r] == ch
    ensures forall j :: r < j < |s| ==> s[j] != ch
  {
    if s == [] then -1
    else if s[|s| - 1] == ch then |s| - 1
    else LastOf(s[..|s| - 1], ch)
  }

  /** The stem of a test inside a class: its first dot comes before any bracket. */
  predicate Scoped(stem: string)
  {
    FirstOf(stem, '.') < |stem| && FirstOf(stem, '.') < FirstOf(stem, '[')
  }

  /** For well-named parts, the stem alone tells whether the test is in a
      class, and its first dot ends the outermost class name. */
  lemma ScopedIffInClass(classes: seq<string>, name: string)
    requires forall i :: 0 <= i < |classes| ==> ClassName(classes[i])
    requires TestName(name)
    ensures classes != [] <==> Scoped(Qualified(classes, name))
    ensures classes != [] ==> FirstOf(Qualified(classes, name), '.') == |classes[0]|
  {
    var s := Qualified(classes, name);
    var d := FirstOf(s, '.');
    if classes != [] {
      var c := classes[0];
      assert ClassName(c);
      assert s == c + "." + Qualified(classes[1..], name);
      assert s[|c|] == '.';
      assert forall j :: 0 <= j < |c| ==> s[j] == c[j];
      assert d == |c|;
      assert FirstOf(s, '[') > |c|;
    } else if d < |s| {
      var j :| 0 <= j < d && s[j] == '[';
      assert FirstOf(s, '[') <= j;
    }
  }

  /** In `p + "/" + s` with slash-free `s`, the last slash sits at `|p|`. */
  lemma LastSlashSplits(p: string, s: string)
    requires Free(s, '/')
    ensures LastOf(p + "/" + s, '/') == |p|
  {
    SlashThenFree(p, s);
    LastOfUnique(p + "/" + s, '/', |p|);
  }

  lemma SlashThenFree(p: string, s: string)
    requires Free(s, '/')
    ensures (p + "/" + s)[|p|] == '/'
    ensures forall j :: |p| < j < |p + "/" + s| ==> (p + "/" + s)[j] != '/'
  {
    var t := ['/'] + s;
    var k := p + t;
    assert k == p + "/" + s;
    forall j | |p| < j < |k| ensures k[j] != '/' {
      var i := j - |p|;
      assert k[j] == t[i];
      assert t[i] == s[i - 1];
    }
  }

  /** The position `LastOf` finds is the only one with its two properties. */
  lemma LastOfUnique(s: string, ch: char, r: int)
    requires 0 <= r < |s| && s[r] == ch
    requires forall j :: r < j < |s| ==> s[j] != ch
    ensures LastOf(s, ch) == r
  {
    var q := LastOf(s, ch);
  }

  lemma ModulePathInjective(m1: string, m2: string)
    requires Free(m1, '/') && Free(m2, '/')
    requires ModulePath(m1) == ModulePath(m2)
    ensures m1 == m2
  {
    var r := ModulePath(m1);
    forall i | 0 <= i < |m1| ensures m1[i] == m2[i] {
      assert r[i] == ModulePath(m2)[i];
    }
  }

  /** Equal stems of well-named parts have the same class path and name. */
  lemma {:induction false} QualifiedInjective(cs1: seq<string>, n1: string, cs2: seq<string>, n2: string)
    requires forall i :: 0 <= i < |cs1| ==> ClassName(cs1[i])
    requires forall i :: 0 <= i < |cs2| ==> ClassName(cs2[i])
    requires TestName(n1) && TestName(n2)
    requires Qualified(cs1, n1) == Qualified(cs2, n2)
    ensures cs1 == cs2 && n1 == n2
    decreases |cs1|
  {
    var s := Qualified(cs1, n1);
    ScopedIffInClass(cs1, n1);
    ScopedIffInClass(cs2, n2);
    if cs1 != [] {
      var c1, c2 := cs1[0], cs2[0];
      var r1, r2 := Qualified(cs1[1..], n1), Qualified(cs2[1..], n2);
      assert s == c1 + "." + r1 && s == c2 + "." + r2;
      assert |c1| == |c2|;
      assert c1 == s[..|c1|] == c2;
      assert r1 == s[|c1| + 1..] == r2;
      QualifiedInjective(cs1[1..], n1, cs2[1..], n2);
      assert cs1 == [c1] + cs1[1..] && cs2 == [c2] + cs2[1..];
    }
  }

  /** Distinct well-named tests never share a key, so their baselines never
      collide. */
  lemma {:induction false} KeyInjective(id1: TestId, id2: TestId)
    requires WellNamed(id1) && WellNamed(id2)
    requires TestKey(id1) == TestKey(id2)
    ensures id1 == id2
  {
    var p1, p2 := ModulePath(id1.moduleName), ModulePath(id2.moduleName);
    var k := TestKey(id1);
    LastSlashSplits(p1, Stem(id1));
    LastSlashSplits(p2, Stem(id2));
    assert p1 == k[..|p1|] == p2;
    assert Stem(id1) == k[|p1| + 1..] == Stem(id2);
    ModulePathInjective(id1.moduleName, id2.moduleName);
    QualifiedInjective(id1.classes, id1.name, id2.classes, id2.name);
  }

  /** Letters, digits and underscores only. */
  predicate Identifier(s: string)
  {
    forall i :: 0 <= i < |s| ==> s[i] == '_' || 'a' <= s[i] <= 'z' || 'A' <= s[i] <= 'Z' || '0' <= s[i] <= '9'
  }

  /** A plain Python identifier is a valid class name and test name. */
  lemma IdentifierNamed(s: string)
    requires Identifier(s)
    ensures ClassName(s) && TestName(s)
  {
  }

  /** `m.py::TestOuter1::TestInner::test_x` */
  const NestedOne := TestId("m", ["TestOuter1", "TestInner"], "test_x")

  /** `m.py::TestOuter2::TestInner::test_x` */
  const NestedTwo := TestId("m", ["TestOuter2", "TestInner"], "test_x")

  /** Two well-named tests in different outer classes around a same-named
      inner class: the key as written is the same for both, the full key is
      not. */
  lemma NestedClassesCollide()
    ensures NestedOne != NestedTwo && WellNamed(NestedOne) && WellNamed(NestedTwo)
    ensures WrittenKey(NestedOne) == WrittenKey(NestedTwo)
    ensures TestKey(NestedOne) != TestKey(NestedTwo)
  {
    assert NestedOne.classes[0][9] != NestedTwo.classes[0][9];
    IdentifierNamed("TestOuter1");
    IdentifierNamed("TestOuter2");
    IdentifierNamed("TestInner");
    IdentifierNamed("test_x");
    assert WellNamed(NestedOne) && WellNamed(NestedTwo);
    if TestKey(NestedOne) == TestKey(NestedTwo) {
      KeyInjective(NestedOne, NestedTwo);
    }
  }
}

=== FILE: scenarios.dfy ===
/** The answers returned by the repository's own answer tests, and a few
    concrete verify runs against their baselines. */
module Scenarios {
  import opened Values
  import opened Baseline
  import opened Comparator
  import Utf8

  /** A 1-d array of `n` copies of `x`. */
  function Filled(n: nat, x: Element): (t: Tensor)
    ensures t.shape == [n] && |t.elems| == n
  {
    assert Size([n]) == n * Size([]);
    Grid([n], Repeat(n, x))
  }

  function Repeat(n: nat, x: Element): (r: seq<Element>)
    ensures |r| == n
  {
    if n == 0 then [] else [x] + Repeat(n - 1, x)
  }

  function PyNumber(x: real): ArrayLike
  {
    ArrayLike(PyScalar, Grid([], [Num(x)]))
  }

  /** `b"somelongstring"` */
  const SomeLongBytes: seq<byte> :=
    [0x73, 0x6F, 0x6D, 0x65, 0x6C, 0x6F, 0x6E, 0x67, 0x73, 0x74, 0x72, 0x69, 0x6E, 0x67]

  /** `np.ones((10,)) * 2` */
  function Ones(n: nat): Answer
  {
    Array(ArrayLike(Ndarray, Filled(n, Num(2.0))))
  }

  /** `{"a": 1, "b": x}` */
  function Dict(x: real): Answer
  {
    Mapping([Entry("a", PyNumber(1.0)), Entry("b", PyNumber(x))])
  }

  /** `[np.ones((2,)), np.ones((2,)) * 2]` */
  function ListOfArrays(): Answer
  {
    Array(ArrayLike(PyList, Grid([2, 2], [Num(1.0), Num(1.0), Num(2.0), Num(2.0)])))
  }

  /** `test_ones` passes against the baseline it captured. */
  lemma OnesPassAfterCapture(files: Files, dir: string, key: string)
    requires BaselinePath(dir, key) !in files
    ensures CompareAnswerToStore(StoreAnswer(files, dir, key, Ones(10)).files, Some(dir), key, Ones(10)) == Match
  {
    CapturedAnswerPasses(files, dir, key, Ones(10));
  }

  /** `test_dict` passes against the baseline it captured. */
  lemma DictPassesAfterCapture(files: Files, dir: string, key: string)
    requires BaselinePath(dir, key) !in files
    ensures CompareAnswerToStore(StoreAnswer(files, dir, key, Dict(2.0)).files, Some(dir), key, Dict(2.0)) == Match
  {
    CapturedAnswerPasses(files, dir, key, Dict(2.0));
  }

  /** `test_str` passes against the baseline it captured. */
  lemma TextPassesAfterCapture(files: Files, dir: string, key: string)
    requires BaselinePath(dir, key) !in files
    ensures CompareAnswerToStore(StoreAnswer(files, dir, key, Text("somelongstring")).files, Some(dir), key,
                                 Text("somelongstring")) == Match
  {
    CapturedAnswerPasses(files, dir, key, Text("somelongstring"));
  }

  /** `test_bytes` passes against the baseline it captured. */
  lemma BytesPassAfterCapture(files: Files, dir: string, key: string)
    requires BaselinePath(dir, key) !in files
    ensures CompareAnswerToStore(StoreAnswer(files, dir, key, Bytes(SomeLongBytes)).files, Some(dir), key,
                                 Bytes(SomeLongBytes)) == Match
  {
    CapturedAnswerPasses(files, dir, key, Bytes(SomeLongBytes));
  }

  /** `test_list_of_arrays` passes against the baseline it captured. */
  lemma ListPassesAfterCapture(files: Files, dir: string, key: string)
    requires BaselinePath(dir, key) !in files
    ensures CompareAnswerToStore(StoreAnswer(files, dir, key, ListOfArrays()).files, Some(dir), key, ListOfArrays()) == Match
  {
    CapturedAnswerPasses(files, dir, key, ListOfArrays());
  }

  /** Ten twos captured, nine twos returned: the shapes are reported. */
  lemma WrongLengthReportsShapes(files: Files, dir: string, key: string)
    requires BaselinePath(dir, key) !in files
    ensures CompareAnswerToStore(StoreAnswer(files, dir, key, Ones(10)).files, Some(dir), key, Ones(9))
      == Differs(ShapeMismatch([10], [9]))
  {
    StoreReadRoundTrip(Ones(10));
  }

  /** `{"a": 1, "b": x}` captured, `{"a": 1, "b": y}` returned with `y != x`:
      key "a" passes, and the array check on key "b" fails at its only position. */
  lemma ChangedValueFails(files: Files, dir: string, key: string, x: real, y: real)
    requires BaselinePath(dir, key) !in files && x != y
    ensures CompareAnswerToStore(StoreAnswer(files, dir, key, Dict(x)).files, Some(dir), key, Dict(y))
      == Differs(ElementMismatch([0]))
  {
    ComparedWithCapture(files, dir, key, Dict(x), Dict(y));
    DictRoundTrip(x);
    SecondValueDiffers(Read(Store(Dict(x))).ref.members, x, y);
  }

  /** The baseline of `{"a": 1, "b": x}` reads back as both arrays. */
  lemma DictRoundTrip(x: real)
    ensures Read(Store(Dict(x))).Loaded? && Read(Store(Dict(x))).ref.Group?
    ensures "a" in Read(Store(Dict(x))).ref.members
      && Read(Store(Dict(x))).ref.members["a"] == StoredArray(Grid([], [Num(1.0)]))
    ensures "b" in Read(Store(Dict(x))).ref.members
      && Read(Store(Dict(x))).ref.members["b"] == StoredArray(Grid([], [Num(x)]))
  {
    var d := Dict(x);
    MappingRoundTrip(d);
    var m := Read(Store(d)).ref.members;
    var a, b := d.entries[0], d.entries[1];
    assert a in d.entries && b in d.entries;
    assert m[a.key] == StoredArray(a.value.tensor) && m[b.key] == StoredArray(b.value.tensor);
  }

  lemma SecondValueDiffers(m: map<string, Stored>, x: real, y: real)
    requires x != y
    requires "a" in m && m["a"] == StoredArray(Grid([], [Num(1.0)]))
    requires "b" in m && m["b"] == StoredArray(Grid([], [Num(x)]))
    ensures Compare(Group(m), Dict(y)) == Differs(ElementMismatch([0]))
  {
    var es := Dict(y).entries;
    var gx: Tensor, gy: Tensor := Grid([], [Num(x)]), Grid([], [Num(y)]);
    assert EntryVerdict(m, es[0]) == Match;
    assert DifferingFrom(gx, gy, 0) == [0];
    assert EntryVerdict(m, es[1]) == Differs(ElementMismatch([0]));
    assert CompareEntries(m, es[1..]) == Differs(ElementMismatch([0]));
  }

  /** A one-key dict cannot be verified against its own capture. */
  lemma OneKeyDictRaises(files: Files, dir: string, key: string)
    requires BaselinePath(dir, key) !in files
    ensures CompareAnswerToStore(StoreAnswer(files, dir, key, Mapping([Entry("a", PyNumber(1.0))])).files, Some(dir), key,
                                 Mapping([Entry("a", PyNumber(1.0))])) == Error(KeyError("data"))
  {
    SmallMappingNotRecovered(Mapping([Entry("a", PyNumber(1.0))]));
  }

  /** Text captured as `s` and returned as any other string fails as a
      difference, not as a decoding error. */
  lemma ChangedTextFails(files: Files, dir: string, key: string, s: string, t: string)
    requires BaselinePath(dir, key) !in files && s != t
    ensures CompareAnswerToStore(StoreAnswer(files, dir, key, Text(s)).files, Some(dir), key, Text(t))
      == Differs(TextDiffers)
  {
    Utf8.DecodeEncode(s);
    StoreReadRoundTrip(Text(s));
  }

  /** No file at the baseline path: a failure naming the file, not an exception. */
  lemma MissingBaselineNamesFile(dir: string, key: string)
    ensures CompareAnswerToStore(map[], Some(dir), key, Ones(10)).MissingBaseline?
    ensures Mentions(CompareAnswerToStore(map[], Some(dir), key, Ones(10)).message, key + ".h5")
  {
  }
}

=== FILE: utf8.dfy ===
/** UTF-8, as h5py writes a `str` dataset and as Python's strict
    `bytes.decode()` reads it back: no overlong forms, no surrogates,
    nothing above U+10FFFF. */
module Utf8 {
  import opened Values

  predicate IsCont(b: byte)
  {
    0x80 <= b < 0xC0
  }

  function EncodeChar(c: char): (r: seq<byte>)
    ensures 1 <= |r| <= 4
  {
    var n := c as int;
    if n < 0x80 then [n]
    else if n < 0x800 then [0xC0 + n / 0x40, 0x80 + n % 0x40]
    else if n < 0x1_0000 then [0xE0 + n / 0x1000, 0x80 + (n / 0x40) % 0x40, 0x80 + n % 0x40]
    else [0xF0 + n / 0x4_0000, 0x80 + (n / 0x1000) % 0x40, 0x80 + (n / 0x40) % 0x40, 0x80 + n % 0x40]
  }

  function Encode(s: string): seq<byte>
  {
    if s == [] then [] else EncodeChar(s[0]) + Encode(s[1..])
  }

  /** The first character of `b` and how many bytes it takes, or None when
      `b` does not start with a well-formed sequence. */
  function DecodeFirst(b: seq<byte>): (r: Option<(char, nat)>)
    requires |b| > 0
    ensures r.Some? ==> 1 <= r.value.1 <= |b| && r.value.1 <= 4
  {
    var b0: int := b[0];
    var b1: int := if |b| >= 2 then b[1] else 0;
    var b2: int := if |b| >= 3 then b[2] else 0;
    var b3: int := if |b| >= 4 then b[3] else 0;
    if b0 < 0x80 then Some((b0 as char, 1))
    else if 0xC2 <= b0 < 0xE0 then
      if |b| >= 2 && IsCont(b[1]) then
        Some((((b0 - 0xC0) * 0x40 + (b1 - 0x80)) as char, 2))
      else None
    else if 0xE0 <= b0 < 0xF0 then
      if |b| >= 3 && IsCont(b[1]) && IsCont(b[2])
         && (b0 != 0xE0 || 0xA0 <= b1) && (b0 != 0xED || b1 < 0xA0) then
        Some((((b0 - 0xE0) * 0x1000 + (b1 - 0x80) * 0x40 + (b2 - 0x80)) as char, 3))
      else None
    else if 0xF0 <= b0 < 0xF5 then
      if |b| >= 4 && IsCont(b[1]) && IsCont(b[2]) && IsCont(b[3])
         && (b0 != 0xF0 || 0x90 <= b1) && (b0 != 0xF4 || b1 < 0x90) then
        Some((((b0 - 0xF0) * 0x4_0000 + (b1 - 0x80) * 0x1000 + (b2 - 0x80) * 0x40 + (b3 - 0x80)) as char, 4))
      else None
    else None
  }

  /** Strict decoding of a whole byte string; None where Python raises
      `UnicodeDecodeError`. */
  function Decode(b: seq<byte>): Option<string>
    decreases |b|
  {
    if b == [] then Some([])
    else
      match DecodeFirst(b)
      case None => None
      case Some(p) =>
        match Decode(b[p.1..])
        case None => None
        case Some(s) => Some([p.0] + s)
  }

  lemma DecodeFirstOfEncoded(c: char, rest: seq<byte>)
    ensures DecodeFirst(EncodeChar(c) + rest) == Some((c, |EncodeChar(c)|))
  {
    var n := c as int;
    if n < 0x80 {
    } else if n < 0x800 {
      DecodeFirstOfTwo(c, rest);
    } else if n < 0x1_0000 {
      DecodeFirstOfThree(c, rest);
    } else {
      DecodeFirstOfFour(c, rest);
    }
  }

  lemma DecodeFirstOfTwo(c: char, rest: seq<byte>)
    requires 0x80 <= c as int < 0x800
    ensures DecodeFirst(EncodeChar(c) + rest) == Some((c, 2))
  {
    var n := c as int;
    var b := EncodeChar(c) + rest;
    var b0: int, b1: int := b[0], b[1];
    assert b0 == 0xC0 + n / 0x40 && b1 == 0x80 + n % 0x40;
    assert (b0 - 0xC0) * 0x40 + (b1 - 0x80) == n;
  }

  lemma DecodeFirstOfThree(c: char, rest: seq<byte>)
    requires 0x800 <= c as int < 0x1_0000
    ensures DecodeFirst(EncodeChar(c) + rest) == Some((c, 3))
  {
    var n := c as int;
    var b := EncodeChar(c) + rest;
    var b0: int, b1: int, b2: int := b[0], b[1], b[2];
    assert b0 == 0xE0 + n / 0x1000 && b1 == 0x80 + (n / 0x40) % 0x40 && b2 == 0x80 + n % 0x40;
    assert n / 0x1000 * 0x40 + (n / 0x40) % 0x40 == n / 0x40;
    assert (b0 - 0xE0) * 0x1000 + (b1 - 0x80) * 0x40 + (b2 - 0x80) == n;
  }

  lemma DecodeFirstOfFour(c: char, rest: seq<byte>)
    requires 0x1_0000 <= c as int
    ensures DecodeFirst(EncodeChar(c) + rest) == Some((c, 4))
  {
    var n := c as int;
    var b := EncodeChar(c) + rest;
    var b0: int, b1: int, b2: int, b3: int := b[0], b[1], b[2], b[3];
    assert b0 == 0xF0 + n / 0x4_0000 && b1 == 0x80 + (n / 0x1000) % 0x40;
    assert b2 == 0x80 + (n / 0x40) % 0x40 && b3 == 0x80 + n % 0x40;
    assert n / 0x4_0000 * 0x40 + (n / 0x1000) % 0x40 == n / 0x1000;
    assert n / 0x1000 * 0x40 + (n / 0x40) % 0x40 == n / 0x40;
    assert (b0 - 0xF0) * 0x4_0000 + (b1 - 0x80) * 0x1000 + (b2 - 0x80) * 0x40 + (b3 - 0x80) == n;
  }

  /** Text written by h5py reads back as the same text. */
  lemma {:induction false} DecodeEncode(s: string)
    ensures Decode(Encode(s)) == Some(s)
  {
    if s != [] {
      var e := EncodeChar(s[0]);
      DecodeFirstOfEncoded(s[0], Encode(s[1..]));
      assert (e + Encode(s[1..]))[|e|..] == Encode(s[1..]);
      DecodeEncode(s[1..]);
      assert [s[0]] + s[1..] == s;
    }
  }

  lemma EncodeOfDecodedFirst(b: seq<byte>)
    requires |b| > 0 && DecodeFirst(b).Some?
    ensures EncodeChar(DecodeFirst(b).value.0) == b[..DecodeFirst(b).value.1]
  {
    var b0: int := b[0];
    if b0 < 0x80 {
    } else if b0 < 0xE0 {
      EncodeOfDecodedTwo(b);
    } else if b0 < 0xF0 {
      EncodeOfDecodedThree(b);
    } else {
      EncodeOfDecodedFour(b);
    }
  }

  /** A six-bit digit splits off a number cleanly. */
  lemma Digit(x: int, y: int)
    requires 0 <= y < 0x40
    ensures (x * 0x40 + y) / 0x40 == x && (x * 0x40 + y) % 0x40 == y
  {
  }

  lemma EncodeOfDecodedTwo(b: seq<byte>)
    requires |b| > 0 && DecodeFirst(b).Some? && 0x80 <= b[0] < 0xE0
    ensures EncodeChar(DecodeFirst(b).value.0) == b[..2]
  {
    var n := DecodeFirst(b).value.0 as int;
    var x, y := b[0] as int - 0xC0, b[1] as int - 0x80;
    assert n == x * 0x40 + y;
    Digit(x, y);
  }

  lemma EncodeOfDecodedThree(b: seq<byte>)
    requires |b| > 0 && DecodeFirst(b).Some? && 0xE0 <= b[0] < 0xF0
    ensures EncodeChar(DecodeFirst(b).value.0) == b[..3]
  {
    var n := DecodeFirst(b).value.0 as int;
    var x, y, z := b[0] as int - 0xE0, b[1] as int - 0x80, b[2] as int - 0x80;
    assert n == (x * 0x40 + y) * 0x40 + z;
    Digit(x * 0x40 + y, z);
    Digit(x, y);
  }

  lemma EncodeOfDecodedFour(b: seq<byte>)
    requires |b| > 0 && DecodeFirst(b).Some? && 0xF0 <= b[0]
    ensures EncodeChar(DecodeFirst(b).value.0) == b[..4]
  {
    var n := DecodeFirst(b).value.0 as int;
    var w, x, y, z := b[0] as int - 0xF0, b[1] as int - 0x80, b[2] as int - 0x80, b[3] as int - 0x80;
    assert n == ((w * 0x40 + x) * 0x40 + y) * 0x40 + z;
    Digit((w * 0x40 + x) * 0x40 + y, z);
    Digit(w * 0x40 + x, y);
    Digit(w, x);
    assert n / 0x1000 == w * 0x40 + x;
    assert n / 0x4_0000 == w;
  }

  /** Decoding accepts only what encoding produces: the codec is a bijection
      between strings and well-formed byte strings. */
  lemma {:induction false} EncodeDecode(b: seq<byte>, s: string)
    requires Decode(b) == Some(s)
    ensures Encode(s) == b
    decreases |b|
  {
    if b != [] {
      var p := DecodeFirst(b).value;
      var rest := b[p.1..];
      var t := Decode(rest).value;
      assert s == [p.0] + t;
      EncodeDecode(rest, t);
      EncodeOfDecodedFirst(b);
      assert s[0] == p.0 && s[1..] == t;
      assert Encode(s) == EncodeChar(p.0) + Encode(t);
      assert b == b[..p.1] + rest;
    }
  }

  /** Two strings decode from the same bytes only if they are equal. */
  lemma DecodeMatchesIff(b: seq<byte>, t: string)
    ensures Decode(b) == Some(t) <==> b == Encode(t)
  {
    if Decode(b) == Some(t) {
      EncodeDecode(b, t);
    }
    if b == Encode(t) {
      DecodeEncode(t);
    }
  }
}

=== FILE: values.dfy ===
/** The values an answer test can return, and the error kinds the engine can raise.

  An answer is a tagged union: a mapping of named arrays, a byte blob, a text
  string, or an array-like value (a numpy array, a Python number, or a list of
  arrays, which numpy turns into one array).
 */
module Values {

  type byte = x: int | 0 <= x < 0x100

  datatype Option<+T> = None | Some(value: T)

  /** One array element. Equality is numpy's under `assert_array_equal`:
      exact, with NaN equal to NaN. */
  datatype Element = Num(value: real) | Inf(negative: bool) | NaN

  /** Raw shape and flat (row-major) elements of an array. */
  datatype Grid = Grid(shape: seq<nat>, elems: seq<Element>)

  /** Number of elements of an array of the given shape; a 0-d array holds one. */
  function Size(shape: seq<nat>): nat
  {
    if shape == [] then 1 else shape[0] * Size(shape[1..])
  }

  /** A rectangular array: as many elements as its shape says. */
  type Tensor = g: Grid | |g.elems| == Size(g.shape) witness Grid([], [NaN])

  /** What the test returned before numpy saw it. Only an `Ndarray` is an
      instance of `np.ndarray`; the other two are converted on storage. */
  datatype ArrayKind = Ndarray | PyScalar | PyList

  datatype ArrayLike = ArrayLike(kind: ArrayKind, tensor: Tensor)

  datatype Entry = Entry(key: string, value: ArrayLike)

  datatype Answer =
    | Mapping(entries: seq<Entry>)
    | Bytes(bytes: seq<byte>)
    | Text(text: string)
    | Array(value: ArrayLike)

  /** A Python dict never holds a key twice. */
  predicate DistinctKeys(es: seq<Entry>)
  {
    forall i, j :: 0 <= i < j < |es| ==> es[i].key != es[j].key
  }

  function KeySet(es: seq<Entry>): set<string>
  {
    set e | e in es :: e.key
  }

  predicate ValidAnswer(a: Answer)
  {
    a.Mapping? ==> DistinctKeys(a.entries)
  }

  /** Exceptions other than assertion failures that the engine lets escape. */
  datatype PyError =
    | KeyError(key: string)
    | TypeError
    | AttributeError
    | UnicodeDecodeError
    | OtherException(name: string)
}
